=== FILE: README.md ===
# Request routing of the pumlhorse web server, in Dafny

This project models the request-routing core of `lib/server.js` of the
pumlhorse web server and proves properties of that model. The server maps an
HTTP method and path to a `.puml` handler script, collects the request body,
builds the context handed to the script engine, and answers through four
status helpers that end the response and then throw.

The model covers these pieces:

- **`JsValue`.** The JavaScript values the server reads: the parsed routes
  description, handler descriptors and bodies. It covers property lookup,
  `for...in` key order and `toLowerCase`.
- **`RoutePattern`.** A route text cut at its `<\w+>` placeholders. This gives
  the literal segments of the compiled `(.+)` pattern and the variable names,
  in order.
- **`PatternMatch`.** What `path.match(pattern)` returns. It is proved sound
  and complete against a declarative "some split of the path matches"
  relation, and the match it picks starts at the leftmost possible position.
- **`RouteTable`.** `Handler`, `DynamicRoute`, `initRoutes` and `getHandler`.
  - Pure functions state what the tables hold after building and which
    handler a request gets.
  - The class `Router` holds the two global tables, `_staticRoutes` and
    `_dynamicRoutes`. Its loops fill and read them, and each loop is proved
    equal to those functions.
- **`Requests`.** The per-request wrapper: the body buffer, route-parameter
  binding through `decodeURI`, and `toContext`/`getBody`.
- **`Responses`.** `ok`, `badRequest`, `notFound`, `serverError` and `end`,
  over a `Response` object with a status, headers and the list of written
  bodies.
- **`Dispatch`.** `handleRequest`, `runRequest`, and one request end to end.
- **`Scenarios`.** A worked example: the GET route `/users/<id>` and the
  request `GET /users/42`.

The model keeps three behaviours of the code as written:

- `initRoutes` lower-cases each method key and then reads the description
  under the lower-cased key. So a key spelled `GET` installs an empty `get`
  table (`RouteTable.UpperCaseMethodKeyInstallsEmptyTable`).
- A body that does not parse as JSON makes `toContext` throw inside the `end`
  listener. Nothing turns that failure into a response, and only the throw
  in `end` stands between a request and a second response. The model
  follows the code:
  - `Dispatch.RunRequest` reports `ContextFailed` and writes nothing.
  - The exception that `end` always throws is modelled as the returned
    `Fault`.
- A handler whose `script` is not a string (for example `{"filters": []}`,
  which `Handler` accepts) makes `path.join` throw a TypeError before the
  engine starts and outside its promise. `Dispatch.RunRequest` reports
  `ScriptPathFailed` and writes nothing.

The pathname and query that `url.parse` returns are inputs of the `Request`
constructor. `querystring.parse`, `decodeURI`, `JSON.parse` and
`JSON.stringify` are parameters of the operations that call them.
`decodeURI` and `JSON.parse` may fail. The script engine is reduced to
whether it reports an error, and with which text.

## Model

| member | source | states |
|---|---|---|
| RouteTable.MakeHandler | lib/server.js:133-142 | a string descriptor becomes the file with no filters; any other object (array or object) gives its `script` and `filters` members; anything else is rejected with "Unexpected script format"; success exactly for those two kinds |
| RouteTable.Build | lib/server.js:29-30 | a null or undefined routes description is rejected with the "routes dictionary" error and leaves the tables untouched |
| RouteTable.BuildRejectsNullish | lib/server.js:29-51 | the "routes dictionary" error occurs exactly when the description is null or undefined; any other failure is "Unexpected script format" |
| RouteTable.BuildValid | lib/server.js:29-51 | whether building succeeds or throws part-way, every static key has no placeholder and every dynamic route's pattern and variables are those derived from its text |
| RouteTable.AddRoute | lib/server.js:37-47 | one route's only possible error is "Unexpected script format"; its placement is carried by `AddRoutesStatics` and `AddRoutesDynamics` |
| RouteTable.AddRoutes | lib/server.js:36-48 | the inner loop's only possible error is "Unexpected script format"; its content is carried by the `AddRoutes*` lemmas |
| RouteTable.BuildMethod | lib/server.js:34-49 | the routes built for one method are well formed and can fail only with "Unexpected script format" |
| RouteTable.InstallMethod | lib/server.js:33-36 | one outer turn adds the lower-cased key to both tables and leaves every other method's routes as they were |
| RouteTable.InstallMethods | lib/server.js:32-50 | the outer loop never removes a method from either table; its content is carried by the `InstallMethods*` lemmas |
| RouteTable.AddRouteValid | lib/server.js:37-47 | adding one route keeps a method's routes well formed |
| RouteTable.AddRoutesValid | lib/server.js:36-48 | adding any sequence of routes keeps a method's routes well formed |
| RouteTable.MethodBuilderValid | lib/server.js:34-49 | the routes built for any method from any description are well formed |
| RouteTable.InstallMethodsValid | lib/server.js:32-50 | installing well-formed routes per method keeps both tables well formed and keyed by the same methods |
| RouteTable.BuildPlacement | lib/server.js:32-36 | after a successful build, every method key is installed under its lower-cased name with the routes built from `routes[lower-cased key]` |
| RouteTable.BuildKeepsOthers | lib/server.js:32-35 | a successful build adds no method other than the lower-cased keys and leaves every other method's tables as they were |
| RouteTable.InstallMethodsPlacement | lib/server.js:33-36 | each key's lower-cased method holds exactly the routes built for it, the last spelling of it winning |
| RouteTable.InstallMethodsKeepsOthers | lib/server.js:33-35 | methods that no key lower-cases to keep their tables, and no other method appears |
| RouteTable.InstallMethodsError | lib/server.js:32-50 | the outer loop fails only with the error of some method's routes |
| RouteTable.UpperCaseMethodKeyInstallsEmptyTable | lib/server.js:33-36 | a method key `GET` installs `get` with no routes, because the lookup uses the lower-cased key |
| RouteTable.AddRouteError | lib/server.js:39-46 | one route fails exactly when its descriptor is neither a string nor an object |
| RouteTable.AddRoutesFails | lib/server.js:36-48 | building a method fails exactly when some route's descriptor is neither a string nor an object |
| RouteTable.AddRoutesLast | lib/server.js:36-48 | a successful build is the build of all routes but the last, followed by the last route, whose descriptor is valid |
| RouteTable.AddRoutesErrorSticks | lib/server.js:36-48 | once a route throws, the later routes are not visited |
| RouteTable.InstallMethodsErrorSticks | lib/server.js:32-50 | once a method throws, the later methods are not visited |
| RouteTable.AddRoutesStatics | lib/server.js:37-39 | with distinct keys, the static map gains exactly the placeholder-free keys, each under its exact text with its own descriptor's handler, and keeps all other entries |
| RouteTable.AddRoutesDynamics | lib/server.js:41-47 | the routes with placeholders are appended after the existing dynamic routes in declaration order, each with its own text and its own descriptor's handler; the existing ones are unchanged |
| RouteTable.AddRoutesDynamicList | lib/server.js:41-47 | from scratch, the dynamic list's route texts are exactly the keys with placeholders, in order |
| RouteTable.BuildMethodFails | lib/server.js:36-48 | a method description builds exactly when every route's descriptor `routes[method][route]` is a string or an object |
| RouteTable.BuildMethodStatics | lib/server.js:37-39 | the static map's keys are exactly the description's placeholder-free route keys, each with the handler of its own descriptor |
| RouteTable.BuildMethodDynamics | lib/server.js:41-47 | the dynamic list holds the route keys that have placeholders, in `for...in` order, each with the handler of its own descriptor |
| RouteTable.BuildRoutes | lib/server.js:36-49 | the imperative inner loop leaves exactly the routes and the error of the specification of one method's build |
| RouteTable.Router.constructor | lib/server.js:15-16 | both tables start empty and well formed |
| RouteTable.Router.InitRoutes | lib/server.js:29-51 | the nested loops leave the tables and the thrown error exactly as the specification of `initRoutes` does, and keep the tables well formed |
| RouteTable.Router.InitMethod | lib/server.js:33-49 | one outer turn resets the lower-cased method's two tables to what its description builds, stopping at a throw with the routes added so far |
| RouteTable.FirstMatch | lib/server.js:82-91 | the scan never gives a static hit, and a hit names a route at or after the start with that route's handler and variables and one capture per variable |
| RouteTable.Resolve | lib/server.js:75-91 | a static hit occurs exactly when the path is a static key of the method, with that key's handler; a dynamic hit is a route of the method, with its handler |
| RouteTable.FirstMatchCorrect | lib/server.js:82-91 | the scan returns the first route in list order whose pattern matches, with captures that match it, one per variable; no earlier route matches; no route means none matches |
| RouteTable.ResolveCorrect | lib/server.js:75-91 | an exact static key wins whatever dynamic routes exist; otherwise the first matching dynamic route wins; no handler exactly when the method has no static hit and no dynamic route matches |
| RouteTable.LookupHandler | lib/server.js:75-92 | a static hit or no route leaves the route parameters untouched; the result is "no handler" exactly when no route answers |
| RouteTable.LookupHandlerDynamic | lib/server.js:84-90 | on a dynamic hit whose captures all decode, the handler is returned and capture k is stored under variable k, with the later capture winning for a repeated name; otherwise the first capture that fails to decode throws its URIError |
| RouteTable.Router.GetHandler | lib/server.js:75-92 | the imperative lookup returns and binds exactly what the specification of `getHandler` does |
| RoutePattern.PlaceholderAtCorrect | lib/server.js:28 | a placeholder is found at a position exactly when `<\w+>` matches there |
| RoutePattern.ParseRoute | lib/server.js:37-45 | the template has one more literal segment than names; the meaning is carried by `ParseRouteExact` |
| RoutePattern.ParseRouteRoundTrip | lib/server.js:37-45 | writing each variable back as `<name>` between the literal segments gives the route text again |
| RoutePattern.FirstLiteralIsPlain | lib/server.js:42 | the first literal segment is the route text up to its first placeholder |
| RoutePattern.FirstLiteralHasNoPlaceholder | lib/server.js:42 | no `<\w+>` lies inside the first literal segment |
| RoutePattern.ParseFromLiteralsArePlain | lib/server.js:42 | no literal segment holds a `<\w+>`: every placeholder of the route became a `(.+)` hole |
| RoutePattern.ParseRouteExact | lib/server.js:37-45 | the variables are exactly the placeholder names in left-to-right order: the round trip holds, each name is a word, and no literal segment holds a placeholder |
| RoutePattern.ParseFromRoundTrip | lib/server.js:37-45 | the same round trip for every suffix of the route text |
| RoutePattern.ParseFromNamesAreWords | lib/server.js:45 | every variable name is a non-empty run of word characters |
| RoutePattern.ParseFromStaticIff | lib/server.js:37-38 | a route text has no variables exactly when `<\w+>` matches nowhere in it |
| RoutePattern.ParseFromPlainRun | lib/server.js:42 | characters where no placeholder starts are copied into the pattern's literal segment |
| PatternMatch.Exec | lib/server.js:84 | a match has one capture per `(.+)`, each non-empty and free of line terminators; the rest is carried by `ExecCorrect` |
| PatternMatch.ExecCorrect | lib/server.js:84 | the match returns captures exactly when some split of the path matches the pattern; what it returns is such a split, starting at the leftmost position where any match starts |
| PatternMatch.Unanchored | lib/server.js:42 | the compiled pattern is not anchored: text before and after a matching path keeps it matching |
| PatternMatch.MatchFromSound | lib/server.js:84 | a match attempted at a fixed position returns only real matches |
| PatternMatch.MatchFromComplete | lib/server.js:84 | a match attempted at a fixed position succeeds whenever some match starts there |
| PatternMatch.SearchFromSound | lib/server.js:84 | the search returns a match no earlier than its start and none exists before it |
| Requests.GetBody | lib/server.js:119-131 | the body is parsed exactly when the content type is `application/json` or `text/json` and the text is non-empty; a parse failure is reported with its message; otherwise the text is returned unchanged |
| Requests.Request.ToContext | lib/server.js:110-117 | route parameters and headers pass through, the query is parsed, the body is `getBody` of the whole buffer; it fails exactly when `getBody` does |
| Requests.Request.constructor | lib/server.js:94-106 | the method is lower-cased, route parameters start empty and the body buffer starts as "" |
| Requests.Request.OnData | lib/server.js:105 | a chunk is appended to the body buffer |
| Requests.Request.ReceiveAll | lib/server.js:102-105 | after any sequence of chunks, the buffer is its old content followed by their concatenation in arrival order |
| Requests.AccumulateBody | lib/server.js:94-105 | a fresh request that receives any chunks holds exactly their concatenation, with no route parameters |
| Requests.Concat | lib/server.js:105 | the body is empty exactly when every chunk is empty |
| Requests.ConcatAppend | lib/server.js:105 | receiving chunks in two batches gives the same body as receiving them at once |
| Requests.Request.AddRouteParameter | lib/server.js:107-109 | a decodable value is stored under its name, decoded; otherwise the URIError escapes and nothing changes |
| Requests.Request.AddRouteParameters | lib/server.js:87-89 | the capture loop binds exactly what the specification of parameter binding does, stopping at the first URIError |
| Requests.BindParams | lib/server.js:87-89 | binding never removes a parameter, keeps the value of every key that is not a variable name, and fails only with a capture that `decodeURI` rejects |
| Requests.BindParamsAllDecoded | lib/server.js:87-89 | when every capture decodes, no error occurs, the keys added are exactly the variable names, and other keys keep their values |
| Requests.BindParamsLastWins | lib/server.js:87-89 | when every capture decodes, each name holds the decoded capture of its last occurrence |
| Requests.BindParamsDecodes | lib/server.js:87-89 | when every capture decodes, binding raises no URIError |
| Requests.BindParamsStopsAtFailure | lib/server.js:87-89 | the first capture that fails to decode throws its URIError, leaving exactly the captures before it bound |
| Responses.Payload | lib/server.js:217-221 | an object or array body is sent as its JSON text, anything else unchanged, so what is sent is never an object |
| Responses.HeadersAfter | lib/server.js:217-220 | `Content-Type: application/json` is added exactly for an object body, and other headers are kept |
| Responses.Response.End | lib/server.js:215-223 | the status is set, the body is written once (serialised if it is an object) and the "Script ended" fault is always raised |
| Responses.Response.Ok | lib/server.js:199-201 | status 200, then as `end` |
| Responses.Response.BadRequest | lib/server.js:203-205 | status 400, then as `end` |
| Responses.Response.NotFound | lib/server.js:207-209 | status 404, then as `end` |
| Responses.Response.ServerError | lib/server.js:211-213 | status 500, then as `end` |
| Dispatch.HandleRequest | lib/server.js:60-73 | no handler writes a 404 with no body at once and faults; a URIError escapes with nothing written; otherwise nothing is written and the handler waits for the body |
| Dispatch.RunRequest | lib/server.js:145-176 | a body that does not parse stops the request with nothing written; a `script` that is not a string makes `path.join` throw with nothing written; otherwise the handler's script runs on the context, and an engine error writes a 500 with its text |
| Dispatch.Serve | lib/server.js:60-115 | end to end, the script that runs is the chosen handler's file, its context holds the bound route parameters and `getBody` of the concatenated chunks, and the request stops before any script runs exactly when that body fails to parse (`ContextFailed`) or, the body parsing, the handler's file is not a string (`ScriptPathFailed`); at most one response is written: a body-less 404 when no handler answers, a 500 with the engine's text when the engine reports an error, and nothing at all otherwise |
| JsValue.Lower | lib/server.js:33 | the lower-cased text has the same length, with every character lower-cased in place |
| JsValue.ForInKeys | lib/server.js:32 | the keys a `for...in` loop visits are distinct |
| Scenarios.UsersRouteTemplate | lib/server.js:37-45 | `/users/<id>` is dynamic, with the literal `/users/` before one variable `id` |
| Scenarios.UsersPathCaptures | lib/server.js:84 | its pattern matches `/users/42` with the capture `42` |
| Scenarios.OneRouteTable | lib/server.js:36-48 | a description with a single route builds exactly that route |
| Scenarios.UsersTableBuilds | lib/server.js:36-48 | the GET description builds one dynamic route and no static one |
| Scenarios.UsersRouteBuilds | lib/server.js:29-51 | the whole description installs that route under `get` |
| Scenarios.UsersLookup | lib/server.js:75-92 | `GET /users/42` picks that route and binds `id` to the decoded `42` |

## Left out

- `run` (lib/server.js:18-26) is not part of this model: it loads `site.json`, creates the HTTP server and listens on a port.
- `createModule` and `doResponse` (lib/server.js:185-197) register response functions with the script engine's module system. They are not modelled. Line 186 names `pumlhorse`, not the imported `_pumlhorse`, so unless the engine defines that global, the call at line 149 throws a ReferenceError before the engine runs. `Dispatch.RunRequest` assumes the call completes.
- The inside of `_pumlhorse.runProfile`, its completion callback and its `.catch` (lib/server.js:151-165) are reduced to a parameter: the error text the engine reports, if any.
- `getPumlScript`, the commented-out code (lib/server.js:167-183) and lib/promiseFs.js are not modelled. They are file reads that nothing calls.
- `url.parse` is not modelled: the pathname and query it returns are inputs of the `Request` constructor. A null pathname is not modelled, because the path is a string.
- `querystring.parse`, `decodeURI`, `JSON.parse` and `JSON.stringify` are parameters. Their algorithms are not modelled.
- Regular-expression metacharacters in route literals are matched as plain text. An invalid pattern, for which `new RegExp` throws, is not modelled.
- `for...in` order puts integer-like keys first in JavaScript. Here keys are visited in first-occurrence order.
- Properties inherited from `Object.prototype` are not modelled. In the source, a path, method or content type spelled like one of them (for example `constructor`) finds that inherited value.
- JSON numbers are integers here. Floating point is not modelled.
- JsValue.Lower: lower-cases ASCII letters only, while `toLowerCase` also folds other letters.
- Body chunks arrive as strings. Decoding Buffer chunks is not modelled.
- The timing of the `data` and `end` events is not modelled. So is what the exception thrown by `end` does to its caller: it is returned as a `Fault`.
- Node's own checks on `response.end` (a non-string body) and the case-insensitivity of header names are not modelled.
- PatternMatch.ExecCorrect: proves that the returned captures are a match at the leftmost starting position. It does not state that they are the greedy choice among the matches at that position, though `Exec` computes the greedy choice.

=== FILE: dispatch.dfy ===
/**
 * The life of one request in lib/server.js: `handleRequest` (lines 60-73)
 * looks the handler up at once and answers 404 when there is none;
 * otherwise the body arrives chunk by chunk and, at its end, `runRequest`
 * (lines 145-176) builds the context and hands it to the script engine,
 * whose failure becomes a 500. The engine itself is a parameter: only
 * whether it reports an error, and its text, is modelled.
 */
module Dispatch {
  import opened Wrappers
  import opened JsValue
  import opened Requests
  import opened RouteTable
  import opened Responses

  /** What `handleRequest` does with a request. */
  datatype Dispatched =
    | NotFoundSent(fault: Fault)      // no handler: `notFound(response)`, which throws
    | RouteFailed(error: UriError)    // `getHandler` threw a URIError
    | AwaitingBody(handler: Handler)  // an `end` listener waits to run the handler

  /**
   * `handleRequest` (lib/server.js:60-73) for a request whose wrapper is
   * already built: a missing handler answers 404 with no body; a URIError
   * escapes before anything is written; a handler waits for the body.
   */
  method HandleRequest(router: Router, request: Request, response: Response,
                       decodeUri: string -> Option<string>, stringify: Value -> string)
    returns (d: Dispatched)
    requires router.Valid()
    modifies request`routeParameters, response
    ensures var found := LookupHandler(router.Current(), request.httpMethod, request.path,
                                       old(request.routeParameters), decodeUri);
      && request.routeParameters == found.params
      && match found.result
         case Failure(e) => d == RouteFailed(e) && unchanged(response)
         case Success(Some(h)) => d == AwaitingBody(h) && unchanged(response)
         case Success(None) =>
           && d == NotFoundSent(ScriptEnded)
           && response.statusCode == StatusNotFound
           && response.headers == old(response.headers)
           && response.sent == old(response.sent) + [Undefined]
  {
    var handler := router.GetHandler(request, decodeUri);
    match handler
    case Failure(e) =>
      return RouteFailed(e);
    case Success(None) =>
      var fault := response.NotFound(Undefined, stringify);
      return NotFoundSent(fault);
    case Success(Some(h)) =>
      return AwaitingBody(h);
  }

  /** What `runRequest` comes to. */
  datatype RunOutcome =
    | ContextFailed(error: BodyError)                          // `toContext` threw
    | ScriptPathFailed(file: Value)                            // `path.join` threw a TypeError
    | Ran(script: Value, context: Context, fault: Option<Fault>) // the engine ran `script`

  /**
   * `runRequest` (lib/server.js:145-176): build the context (a body that
   * does not parse throws before the engine starts), join the site directory
   * with the handler's file (`path.join` throws a TypeError, outside the
   * engine's promise, when that file is not a string), run the script on
   * the context, and answer 500 with the error's text if the engine reports
   * one.
   */
  method RunRequest(request: Request, handler: Handler, response: Response,
                    engineError: Option<string>,
                    parseQuery: Option<string> -> Value,
                    parseJson: string -> Result<Value, string>,
                    stringify: Value -> string)
    returns (outcome: RunOutcome)
    modifies response
    ensures match request.ToContext(parseQuery, parseJson)
      case Failure(e) => outcome == ContextFailed(e) && unchanged(response)
      case Success(c) =>
        if !handler.file.Str? then outcome == ScriptPathFailed(handler.file) && unchanged(response)
        else match engineError
        case None => outcome == Ran(handler.file, c, None) && unchanged(response)
        case Some(text) =>
          && outcome == Ran(handler.file, c, Some(ScriptEnded))
          && response.statusCode == StatusServerError
          && response.headers == old(response.headers)
          && response.sent == old(response.sent) + [Str(text)]
  {
    var context := request.ToContext(parseQuery, parseJson);
    if context.Failure? {
      return ContextFailed(context.error);
    }
    if !handler.file.Str? {
      return ScriptPathFailed(handler.file);
    }
    match engineError
    case None =>
      return Ran(handler.file, context.value, None);
    case Some(text) =>
      var fault := response.ServerError(Str(text), stringify);
      return Ran(handler.file, context.value, Some(fault));
  }

  /** The whole of one request, from its arrival to the end of its body. */
  datatype Served =
    | Refused(dispatched: Dispatched)   // answered or failed before any body was read
    | Completed(outcome: RunOutcome)    // the handler ran once the body had ended

  /**
   * One request through lib/server.js: the wrapper is built
   * (lib/server.js:94-106), `handleRequest` dispatches it, the `data`
   * events append `chunks`, and the `end` event runs the handler. The
   * context the handler gets carries the whole body and the bound route
   * parameters.
   */
  method Serve(router: Router, rawMethod: string, path: string, query: Option<string>,
               headers: map<string, string>, chunks: seq<string>, response: Response,
               engineError: Option<string>,
               decodeUri: string -> Option<string>,
               parseQuery: Option<string> -> Value,
               parseJson: string -> Result<Value, string>,
               stringify: Value -> string)
    returns (served: Served)
    requires router.Valid()
    modifies response
    ensures var found := LookupHandler(router.Current(), Lower(rawMethod), path, map[], decodeUri);
      match found.result
      case Failure(e) => served == Refused(RouteFailed(e))
      case Success(None) => served == Refused(NotFoundSent(ScriptEnded))
      case Success(Some(h)) =>
        && served.Completed?
        && (served.outcome.Ran? ==>
              && GetBody(Concat(chunks), ContentTypeOf(headers), parseJson).Success?
              && served.outcome.script == h.file
              && served.outcome.context.path == found.params
              && served.outcome.context.body ==
                   GetBody(Concat(chunks), ContentTypeOf(headers), parseJson).value)
        && (served.outcome.ContextFailed? <==>
              GetBody(Concat(chunks), ContentTypeOf(headers), parseJson).Failure?)
        && (served.outcome.ScriptPathFailed? <==>
              GetBody(Concat(chunks), ContentTypeOf(headers), parseJson).Success? && !h.file.Str?)
    ensures |response.sent| <= |old(response.sent)| + 1
    ensures served == Refused(NotFoundSent(ScriptEnded)) ==>
      && response.statusCode == StatusNotFound
      && response.headers == old(response.headers)
      && response.sent == old(response.sent) + [Undefined]
    ensures served.Completed? && served.outcome.Ran? && served.outcome.fault.Some? ==>
      && engineError.Some?
      && response.statusCode == StatusServerError
      && response.headers == old(response.headers)
      && response.sent == old(response.sent) + [Str(engineError.value)]
    ensures served != Refused(NotFoundSent(ScriptEnded)) &&
            !(served.Completed? && served.outcome.Ran? && served.outcome.fault.Some?) ==>
      unchanged(response)
  {
    ghost var found := LookupHandler(router.Current(), Lower(rawMethod), path, map[], decodeUri);
    var request := new Request(rawMethod, path, query, headers);
    var d := HandleRequest(router, request, response, decodeUri, stringify);
    assert request.routeParameters == found.params;
    if !d.AwaitingBody? {
      return Refused(d);
    }
    assert found.result == Success(Some(d.handler));
    request.ReceiveAll(chunks);
    assert request.rawBody == Concat(chunks);
    assert request.ContentType() == ContentTypeOf(headers);
    var outcome := RunRequest(request, d.handler, response, engineError, parseQuery, parseJson, stringify);
    return Completed(outcome);
  }
}

=== FILE: js_value.dfy ===
/**
 * The JavaScript values the router reads: the parsed routes description
 * (method -> route text -> handler descriptor), handler descriptors, request
 * bodies and response bodies. Only what lib/server.js observes of them is
 * modelled: their kind, property lookup and `for...in` key enumeration.
 */
module JsValue {
  import opened Wrappers

  /**
   * A JSON-like JavaScript value. An object is the list of its members as
   * written; a key may repeat, as in a parsed JSON text.
   */
  datatype Value =
    | Undefined
    | Null
    | Bool(b: bool)
    | Num(n: int)
    | Str(s: string)
    | Arr(elems: seq<Value>)
    | Obj(members: seq<(string, Value)>)

  /** `value == null` in JavaScript: true exactly for null and undefined. */
  predicate IsNullish(v: Value) {
    v.Null? || v.Undefined?
  }

  /** underscore's `_.isObject`: arrays and objects, not null. */
  predicate IsObject(v: Value) {
    v.Arr? || v.Obj?
  }

  /** The decimal text of an array index, as JavaScript property keys spell it. */
  function IndexKey(n: nat): (s: string)
    ensures |s| >= 1
    ensures n < 10 <==> |s| == 1
  {
    if n < 10 then ['0' + n as char]
    else IndexKey(n / 10) + ['0' + (n % 10) as char]
  }

  /** The index below `n` whose key is `k`, if any. */
  function IndexOf(k: string, n: nat): (r: Option<nat>)
    ensures r.Some? ==> r.value < n && IndexKey(r.value) == k
    ensures r.None? ==> forall i :: 0 <= i < n ==> IndexKey(i) != k
  {
    if n == 0 then None
    else match IndexOf(k, n - 1)
      case Some(i) => Some(i)
      case None => if IndexKey(n - 1) == k then Some(n - 1) else None
  }

  /** The keys `0`, `1`, ... of an array or string of length `n`, in order. */
  function IndexKeys(n: nat): (ks: seq<string>)
    ensures |ks| == n && forall i :: 0 <= i < n ==> ks[i] == IndexKey(i)
  {
    if n == 0 then [] else IndexKeys(n - 1) + [IndexKey(n - 1)]
  }

  /** The value of the last member named `k` (a later duplicate overrides an earlier one). */
  function Lookup(ms: seq<(string, Value)>, k: string): Value
  {
    if ms == [] then Undefined
    else if ms[|ms| - 1].0 == k then ms[|ms| - 1].1
    else Lookup(ms[..|ms| - 1], k)
  }

  /** Member names in order of first appearance, each once. */
  function MemberKeys(ms: seq<(string, Value)>): (ks: seq<string>)
    ensures forall a, b :: 0 <= a < b < |ks| ==> ks[a] != ks[b]
  {
    if ms == [] then []
    else
      var ks := MemberKeys(ms[..|ms| - 1]);
      if ms[|ms| - 1].0 in ks then ks else ks + [ms[|ms| - 1].0]
  }

  /** Property access `v[k]` (own properties only). */
  function Member(v: Value, k: string): Value {
    match v
    case Obj(ms) => Lookup(ms, k)
    case Arr(es) => ElementMember(es, k)
    case Str(s) => CharMember(s, k)
    case _ => Undefined
  }

  /** `a[k]` on an array: its length, or the element at an index key. */
  function ElementMember(es: seq<Value>, k: string): Value {
    if k == "length" then Num(|es|)
    else match IndexOf(k, |es|)
      case Some(i) => es[i]
      case None => Undefined
  }

  /** `s[k]` on a string: its length, or the one-character string at an index key. */
  function CharMember(s: string, k: string): Value {
    if k == "length" then Num(|s|)
    else match IndexOf(k, |s|)
      case Some(i) => Str([s[i]])
      case None => Undefined
  }

  /** The keys a `for (k in v)` loop visits, in visiting order. */
  function ForInKeys(v: Value): (ks: seq<string>)
    ensures forall a, b :: 0 <= a < b < |ks| ==> ks[a] != ks[b]
  {
    match v
    case Obj(ms) => MemberKeys(ms)
    case Arr(es) => IndexKeysDistinct(|es|); IndexKeys(|es|)
    case Str(s) => IndexKeysDistinct(|s|); IndexKeys(|s|)
    case _ => []
  }

  lemma IndexKeysDistinct(n: nat)
    ensures forall a, b :: 0 <= a < b < n ==> IndexKeys(n)[a] != IndexKeys(n)[b]
  {
    forall a, b | 0 <= a < b < n
      ensures IndexKey(a) != IndexKey(b)
    {
      if IndexKey(a) == IndexKey(b) {
        IndexKeyInjective(a, b);
      }
    }
  }

  lemma {:induction false} IndexKeyInjective(a: nat, b: nat)
    requires IndexKey(a) == IndexKey(b)
    ensures a == b
  {
    var s := IndexKey(a);
    if a >= 10 && b >= 10 {
      assert IndexKey(a / 10) == s[..|s| - 1] == IndexKey(b / 10);
      IndexKeyInjective(a / 10, b / 10);
    }
  }

  /** `String.prototype.toLowerCase` on one character (ASCII letters only). */
  function LowerChar(c: char): char {
    if 'A' <= c <= 'Z' then (c as int + 32) as char else c
  }

  /** `String.prototype.toLowerCase` (ASCII letters only). */
  function Lower(s: string): (r: string)
    ensures |r| == |s|
    ensures forall i :: 0 <= i < |s| ==> r[i] == LowerChar(s[i])
  {
    if s == [] then [] else [LowerChar(s[0])] + Lower(s[1..])
  }
}

=== FILE: pattern_match.dfy ===
/**
 * What `path.match(pattern)` computes for a compiled dynamic route
 * (lib/server.js:84). The pattern is `l0(.+)l1(.+)...ln`, held as its
 * literal segments `[l0, ..., ln]`. The match is unanchored, each `(.+)`
 * takes at least one character other than a line terminator, the leftmost
 * starting position wins, and at that position the wildcards are tried
 * greedily, longest first, with backtracking, as JavaScript does.
 */
module PatternMatch {
  import opened Wrappers
  import opened RoutePattern

  /** The characters that the regular-expression `.` does not match. */
  predicate IsLineTerminator(c: char) {
    c == '\n' || c == '\r' || c == '\U{2028}' || c == '\U{2029}'
  }

  /** `lit` occurs in `s` at position `i`. */
  predicate LiteralAt(lit: string, s: string, i: nat) {
    i + |lit| <= |s| && s[i..i + |lit|] == lit
  }

  /** A text that `(.+)` can capture. */
  predicate IsCapture(c: string) {
    c != [] && forall j :: 0 <= j < |c| ==> !IsLineTerminator(c[j])
  }

  /** `cs` is a possible list of captures for `ls` matched at position `i` of `s`. */
  ghost predicate MatchesAt(ls: seq<string>, s: string, i: nat, cs: seq<string>) {
    && |ls| == |cs| + 1
    && (forall k :: 0 <= k < |cs| ==> IsCapture(cs[k]))
    && LiteralAt(Interleave(ls, cs), s, i)
  }

  /** `cs` is a possible list of captures for `ls` matched somewhere in `s`. */
  ghost predicate Matches(ls: seq<string>, s: string, cs: seq<string>) {
    exists i :: 0 <= i <= |s| && MatchesAt(ls, s, i, cs)
  }

  /** Match `ls` at exactly position `i`: the literal `ls[0]`, then the wildcards. */
  function MatchFrom(ls: seq<string>, s: string, i: nat): Option<seq<string>>
    requires |ls| >= 1 && i <= |s|
    decreases |ls|, 0, 0
  {
    if !LiteralAt(ls[0], s, i) then None
    else if |ls| == 1 then Some([])
    else Capture(ls[1..], s, i + |ls[0]|, |s| - (i + |ls[0]|))
  }

  /** A wildcard at `start` followed by the rest `ls`, trying lengths `len`, `len - 1`, ..., 1. */
  function Capture(ls: seq<string>, s: string, start: nat, len: nat): Option<seq<string>>
    requires |ls| >= 1 && start + len <= |s|
    decreases |ls|, 1, len
  {
    if len == 0 then None
    else if IsCapture(s[start..start + len]) && MatchFrom(ls, s, start + len).Some? then
      Some([s[start..start + len]] + MatchFrom(ls, s, start + len).value)
    else Capture(ls, s, start, len - 1)
  }

  /** Try each starting position from `p` on. */
  function SearchFrom(ls: seq<string>, s: string, p: nat): Option<seq<string>>
    requires |ls| >= 1 && p <= |s|
    decreases |s| - p
  {
    match MatchFrom(ls, s, p)
    case Some(cs) => Some(cs)
    case None => if p == |s| then None else SearchFrom(ls, s, p + 1)
  }

  /** The captures of `path.match(pattern)`, or None for a null result. */
  function Exec(ls: seq<string>, path: string): (r: Option<seq<string>>)
    requires |ls| >= 1
    ensures r.Some? ==> |r.value| == |ls| - 1 && forall k :: 0 <= k < |r.value| ==> IsCapture(r.value[k])
  {
    SearchFromSound(ls, path, 0);
    SearchFrom(ls, path, 0)
  }

  lemma LiteralConcat(a: string, b: string, s: string, i: nat)
    ensures LiteralAt(a + b, s, i) <==> LiteralAt(a, s, i) && LiteralAt(b, s, i + |a|)
  {
    if LiteralAt(a, s, i) && LiteralAt(b, s, i + |a|) {
      assert s[i..i + |a + b|] == s[i..i + |a|] + s[i + |a|..i + |a| + |b|];
    }
    if LiteralAt(a + b, s, i) {
      assert s[i..i + |a|] == (a + b)[..|a|];
      assert s[i + |a|..i + |a| + |b|] == (a + b)[|a|..];
    }
  }

  lemma InterleaveStep(ls: seq<string>, cs: seq<string>, s: string, i: nat)
    requires |ls| == |cs| + 1 && |cs| >= 1
    ensures LiteralAt(Interleave(ls, cs), s, i) <==>
      && LiteralAt(ls[0], s, i)
      && LiteralAt(cs[0], s, i + |ls[0]|)
      && LiteralAt(Interleave(ls[1..], cs[1..]), s, i + |ls[0]| + |cs[0]|)
  {
    var rest := Interleave(ls[1..], cs[1..]);
    assert Interleave(ls, cs) == ls[0] + (cs[0] + rest);
    LiteralConcat(ls[0], cs[0] + rest, s, i);
    LiteralConcat(cs[0], rest, s, i + |ls[0]|);
  }

  /** What `MatchFrom` returns is a match at `i`. */
  lemma {:induction false} MatchFromSound(ls: seq<string>, s: string, i: nat)
    requires |ls| >= 1 && i <= |s|
    ensures MatchFrom(ls, s, i).Some? ==> MatchesAt(ls, s, i, MatchFrom(ls, s, i).value)
    decreases |ls|, 0, 0
  {
    if LiteralAt(ls[0], s, i) && |ls| > 1 {
      var start := i + |ls[0]|;
      CaptureSound(ls[1..], s, start, |s| - start);
      if MatchFrom(ls, s, i).Some? {
        var cs := MatchFrom(ls, s, i).value;
        InterleaveStep(ls, cs, s, i);
      }
    }
  }

  lemma {:induction false} CaptureSound(ls: seq<string>, s: string, start: nat, len: nat)
    requires |ls| >= 1 && start + len <= |s|
    ensures Capture(ls, s, start, len).Some? ==>
      var cs := Capture(ls, s, start, len).value;
      && |cs| >= 1
      && IsCapture(cs[0])
      && LiteralAt(cs[0], s, start)
      && MatchesAt(ls, s, start + |cs[0]|, cs[1..])
    decreases |ls|, 1, len
  {
    if len > 0 {
      if IsCapture(s[start..start + len]) && MatchFrom(ls, s, start + len).Some? {
        MatchFromSound(ls, s, start + len);
        var cs := Capture(ls, s, start, len).value;
        assert cs[1..] == MatchFrom(ls, s, start + len).value;
      } else {
        CaptureSound(ls, s, start, len - 1);
      }
    }
  }

  /** If a wildcard of length `k <= len` lets the rest match, `Capture` finds some match. */
  lemma {:induction false} CaptureComplete(ls: seq<string>, s: string, start: nat, len: nat, k: nat)
    requires |ls| >= 1 && start + len <= |s|
    requires 1 <= k <= len
    requires IsCapture(s[start..start + k]) && MatchFrom(ls, s, start + k).Some?
    ensures Capture(ls, s, start, len).Some?
    decreases len
  {
    if k < len && !(IsCapture(s[start..start + len]) && MatchFrom(ls, s, start + len).Some?) {
      CaptureComplete(ls, s, start, len - 1, k);
    }
  }

  /** Whenever some captures match at `i`, `MatchFrom` succeeds at `i`. */
  lemma {:induction false} MatchFromComplete(ls: seq<string>, s: string, i: nat, cs: seq<string>)
    requires i <= |s|
    requires MatchesAt(ls, s, i, cs)
    ensures MatchFrom(ls, s, i).Some?
    decreases |ls|
  {
    if |cs| > 0 {
      InterleaveStep(ls, cs, s, i);
      var start := i + |ls[0]|;
      assert MatchesAt(ls[1..], s, start + |cs[0]|, cs[1..]);
      MatchFromComplete(ls[1..], s, start + |cs[0]|, cs[1..]);
      assert s[start..start + |cs[0]|] == cs[0];
      CaptureComplete(ls[1..], s, start, |s| - start, |cs[0]|);
    } else {
      assert Interleave(ls, cs) == ls[0];
    }
  }

  /** The search result is a match that starts at position `p` or later, and none starts earlier than it. */
  lemma {:induction false} SearchFromSound(ls: seq<string>, s: string, p: nat)
    requires |ls| >= 1 && p <= |s|
    ensures SearchFrom(ls, s, p).Some? ==>
      exists i :: p <= i <= |s| && MatchesAt(ls, s, i, SearchFrom(ls, s, p).value) &&
        forall j, cs :: p <= j < i ==> !MatchesAt(ls, s, j, cs)
    ensures SearchFrom(ls, s, p).None? ==>
      forall j, cs :: p <= j <= |s| ==> !MatchesAt(ls, s, j, cs)
    decreases |s| - p
  {
    MatchFromSound(ls, s, p);
    forall cs | MatchesAt(ls, s, p, cs) ensures MatchFrom(ls, s, p).Some? {
      MatchFromComplete(ls, s, p, cs);
    }
    if MatchFrom(ls, s, p).None? && p < |s| {
      SearchFromSound(ls, s, p + 1);
    }
  }

  /**
   * `Exec` returns captures exactly when the pattern matches somewhere in the
   * path; what it returns is a match, at the leftmost position where any match starts.
   */
  lemma ExecCorrect(ls: seq<string>, path: string)
    requires |ls| >= 1
    ensures Exec(ls, path).Some? ==> Matches(ls, path, Exec(ls, path).value)
    ensures Exec(ls, path).Some? ==>
      exists i :: 0 <= i <= |path| && MatchesAt(ls, path, i, Exec(ls, path).value) &&
        forall j, cs :: 0 <= j < i ==> !MatchesAt(ls, path, j, cs)
    ensures Exec(ls, path).None? <==> forall cs :: !Matches(ls, path, cs)
  {
    SearchFromSound(ls, path, 0);
  }

  /** The pattern is not anchored: text around a matching path keeps it matching. */
  lemma Unanchored(ls: seq<string>, path: string, cs: seq<string>, pre: string, post: string)
    requires Matches(ls, path, cs)
    ensures Matches(ls, pre + path + post, cs)
  {
    var i :| 0 <= i <= |path| && MatchesAt(ls, path, i, cs);
    var lit := Interleave(ls, cs);
    var s := pre + path + post;
    assert s[|pre| + i..|pre| + i + |lit|] == path[i..i + |lit|];
    assert MatchesAt(ls, s, |pre| + i, cs);
  }
}

=== FILE: requests.dfy ===
/**
 * The per-request wrapper of lib/server.js (`Request`, lines 94-131): the
 * body buffer filled chunk by chunk, the route parameters bound by the
 * matching dynamic route, and the context handed to the script engine.
 */
module Requests {
  import opened Wrappers
  import opened JsValue

  /** `decodeURI` threw a URIError on this text. */
  datatype UriError = UriError(text: string)

  /** `JSON.parse` threw a SyntaxError with this message. */
  datatype BodyError = BodyError(message: string)

  /** The context body: the parsed JSON value, or the raw text. */
  datatype Body = Json(value: Value) | Text(text: string)

  /** The object built by `toContext`. */
  datatype Context = Context(
    path: map<string, string>,
    query: Value,
    headers: map<string, string>,
    body: Body)

  /** The content types for which `parsers` holds `JSON.parse` (lib/server.js:128-131). */
  predicate IsJsonType(contentType: Option<string>) {
    contentType == Some("application/json") || contentType == Some("text/json")
  }

  /**
   * `getBody` (lib/server.js:119-126). An absent header is looked up as the
   * key "undefined", which has no parser.
   */
  function GetBody(bodyText: string, contentType: Option<string>,
                   parseJson: string -> Result<Value, string>): (r: Result<Body, BodyError>)
    ensures r.Failure? <==> IsJsonType(contentType) && bodyText != "" && parseJson(bodyText).Failure?
    ensures r.Success? && r.value.Json? <==>
      IsJsonType(contentType) && bodyText != "" && parseJson(bodyText).Success?
    ensures r.Success? && r.value.Json? ==> r.value.value == parseJson(bodyText).value
    ensures r.Failure? ==> r.error.message == parseJson(bodyText).error
    ensures !(IsJsonType(contentType) && bodyText != "") ==> r == Success(Text(bodyText))
  {
    if IsJsonType(contentType) && |bodyText| > 0 then
      match parseJson(bodyText)
      case Success(v) => Success(Json(v))
      case Failure(msg) => Failure(BodyError(msg))
    else Success(Text(bodyText))
  }

  /** The concatenation of the chunks, in order. */
  function Concat(chunks: seq<string>): (r: string)
    ensures r == "" <==> forall k :: 0 <= k < |chunks| ==> chunks[k] == ""
  {
    if chunks == [] then ""
    else
      var n := |chunks| - 1;
      assert forall k :: 0 <= k < n ==> chunks[..n][k] == chunks[k];
      Concat(chunks[..n]) + chunks[n]
  }

  /** Concatenation distributes over splitting the chunk list. */
  lemma {:induction false} ConcatAppend(a: seq<string>, b: seq<string>)
    ensures Concat(a + b) == Concat(a) + Concat(b)
    decreases |b|
  {
    if b == [] {
      assert a + b == a;
    } else {
      var b' := b[..|b| - 1];
      var last := b[|b| - 1];
      assert (a + b)[..|a + b| - 1] == a + b';
      assert (a + b)[|a + b| - 1] == last;
      ConcatAppend(a, b');
      assert Concat(a + b) == (Concat(a) + Concat(b')) + last;
      assert (Concat(a) + Concat(b')) + last == Concat(a) + (Concat(b') + last);
    }
  }

  /** Route parameters after binding some captures, and the URIError that stopped binding, if any. */
  datatype Bound = Bound(params: map<string, string>, error: Option<UriError>)

  /**
   * `addRouteParameter` applied to `names[k]` and `caps[k]` for k = 0, 1, ...
   * (lib/server.js:87-89, 107-109), stopping at the first capture that
   * `decodeURI` rejects.
   */
  function BindParams(params: map<string, string>, names: seq<string>, caps: seq<string>,
                      decodeUri: string -> Option<string>): (r: Bound)
    requires |names| == |caps|
    ensures params.Keys <= r.params.Keys
    ensures forall key :: key in params && key !in names ==> r.params[key] == params[key]
    ensures r.error.Some? ==> r.error.value.text in caps && decodeUri(r.error.value.text).None?
    decreases |caps|
  {
    if caps == [] then Bound(params, None)
    else
      var n := |caps| - 1;
      var b := BindParams(params, names[..n], caps[..n], decodeUri);
      if b.error.Some? then b
      else match decodeUri(caps[n])
        case Some(v) => Bound(b.params[names[n] := v], None)
        case None => Bound(b.params, Some(UriError(caps[n])))
  }

  /**
   * When every capture decodes, binding adds exactly the names as keys and
   * leaves every other key as it was.
   */
  lemma {:induction false} BindParamsAllDecoded(params: map<string, string>, names: seq<string>,
                                                caps: seq<string>, decodeUri: string -> Option<string>)
    requires |names| == |caps|
    requires forall k :: 0 <= k < |caps| ==> decodeUri(caps[k]).Some?
    ensures BindParams(params, names, caps, decodeUri).error.None?
    ensures forall key :: key in BindParams(params, names, caps, decodeUri).params <==> key in params || key in names
    ensures forall key :: key in params && key !in names ==>
      BindParams(params, names, caps, decodeUri).params[key] == params[key]
    decreases |caps|
  {
    if caps != [] {
      var n := |caps| - 1;
      BindParamsAllDecoded(params, names[..n], caps[..n], decodeUri);
      assert names == names[..n] + [names[n]];
    }
  }

  /**
   * When every capture decodes, capture k is stored under name k; a name that
   * occurs twice keeps its later capture.
   */
  lemma {:induction false} BindParamsLastWins(params: map<string, string>, names: seq<string>,
                                              caps: seq<string>, decodeUri: string -> Option<string>)
    requires |names| == |caps|
    requires forall k :: 0 <= k < |caps| ==> decodeUri(caps[k]).Some?
    ensures forall k :: 0 <= k < |names| && names[k] !in names[k + 1..] ==>
      && names[k] in BindParams(params, names, caps, decodeUri).params
      && BindParams(params, names, caps, decodeUri).params[names[k]] == decodeUri(caps[k]).value
    decreases |caps|
  {
    if caps != [] {
      var n := |caps| - 1;
      var names', caps' := names[..n], caps[..n];
      BindParamsLastWins(params, names', caps', decodeUri);
      BindParamsDecodes(params, names', caps', decodeUri);
      var b := BindParams(params, names', caps', decodeUri);
      var r := BindParams(params, names, caps, decodeUri);
      assert r.params == b.params[names[n] := decodeUri(caps[n]).value];
      forall k | 0 <= k < n && names[k] !in names[k + 1..]
        ensures names[k] in r.params && r.params[names[k]] == decodeUri(caps[k]).value
      {
        assert names[n] in names[k + 1..];
        assert names'[k + 1..] == names[k + 1..n];
        assert names'[k] == names[k] && names'[k] !in names'[k + 1..];
      }
    }
  }

  /** When every capture decodes, binding raises no URIError. */
  lemma {:induction false} BindParamsDecodes(params: map<string, string>, names: seq<string>,
                                             caps: seq<string>, decodeUri: string -> Option<string>)
    requires |names| == |caps|
    requires forall k :: 0 <= k < |caps| ==> decodeUri(caps[k]).Some?
    ensures BindParams(params, names, caps, decodeUri).error.None?
    decreases |caps|
  {
    if caps != [] {
      BindParamsDecodes(params, names[..|caps| - 1], caps[..|caps| - 1], decodeUri);
    }
  }

  /** If some capture fails to decode, binding stops there with that capture's URIError. */
  lemma {:induction false} BindParamsStopsAtFailure(params: map<string, string>, names: seq<string>,
                                                    caps: seq<string>, decodeUri: string -> Option<string>, f: nat)
    requires |names| == |caps|
    requires f < |caps| && decodeUri(caps[f]).None?
    requires forall k :: 0 <= k < f ==> decodeUri(caps[k]).Some?
    ensures BindParams(params, names, caps, decodeUri) ==
      Bound(BindParams(params, names[..f], caps[..f], decodeUri).params, Some(UriError(caps[f])))
    decreases |caps|
  {
    var n := |caps| - 1;
    if f < n {
      BindParamsStopsAtFailure(params, names[..n], caps[..n], decodeUri, f);
      assert names[..n][..f] == names[..f] && caps[..n][..f] == caps[..f];
    } else {
      assert names[..n] == names[..f] && caps[..n] == caps[..f];
      BindParamsDecodes(params, names[..n], caps[..n], decodeUri);
    }
  }

  lemma BindParamsStep(params: map<string, string>, names: seq<string>, caps: seq<string>,
                       decodeUri: string -> Option<string>, k: nat)
    requires |names| == |caps| && k < |caps|
    requires BindParams(params, names[..k], caps[..k], decodeUri).error.None?
    ensures BindParams(params, names[..k + 1], caps[..k + 1], decodeUri) ==
      match decodeUri(caps[k])
      case Some(v) => Bound(BindParams(params, names[..k], caps[..k], decodeUri).params[names[k] := v], None)
      case None => Bound(BindParams(params, names[..k], caps[..k], decodeUri).params, Some(UriError(caps[k])))
  {
    assert names[..k + 1][..k] == names[..k];
    assert caps[..k + 1][..k] == caps[..k];
  }

  /** Once a capture has failed to decode, the later ones are not looked at. */
  lemma {:induction false} BindParamsErrorSticks(params: map<string, string>, names: seq<string>, caps: seq<string>,
                                                 decodeUri: string -> Option<string>, n: nat)
    requires |names| == |caps| && n <= |caps|
    requires BindParams(params, names[..n], caps[..n], decodeUri).error.Some?
    ensures BindParams(params, names, caps, decodeUri) == BindParams(params, names[..n], caps[..n], decodeUri)
    decreases |caps| - n
  {
    var m := |caps|;
    if n < m {
      assert names[..m - 1][..n] == names[..n];
      assert caps[..m - 1][..n] == caps[..n];
      BindParamsErrorSticks(params, names[..m - 1], caps[..m - 1], decodeUri, n);
    } else {
      assert names[..n] == names && caps[..n] == caps;
    }
  }

  /** The `content-type` header, if the request has one. */
  function ContentTypeOf(headers: map<string, string>): Option<string> {
    if "content-type" in headers then Some(headers["content-type"]) else None
  }

  /** An inbound request as lib/server.js wraps it (lib/server.js:94-106). */
  class Request {
    /** The request method, lower-cased. */
    const httpMethod: string
    /** `url.parse(request.url).pathname`. */
    const path: string
    /** `url.parse(request.url).query`: the text after `?`, if any. */
    const query: Option<string>
    /** The header map as received (names lower-cased by the transport). */
    const headers: map<string, string>
    var routeParameters: map<string, string>
    var rawBody: string

    constructor (rawMethod: string, path: string, query: Option<string>, headers: map<string, string>)
      ensures httpMethod == Lower(rawMethod) && this.path == path
      ensures this.query == query && this.headers == headers
      ensures routeParameters == map[] && rawBody == ""
    {
      httpMethod := Lower(rawMethod);
      this.path := path;
      this.query := query;
      this.headers := headers;
      routeParameters := map[];
      rawBody := "";
    }

    /** The `data` listener: `rawBody += chunk` (lib/server.js:105). */
    method OnData(chunk: string)
      modifies this`rawBody
      ensures rawBody == old(rawBody) + chunk
    {
      rawBody := rawBody + chunk;
    }

    /** The `data` events of one request, delivered in arrival order. */
    method ReceiveAll(chunks: seq<string>)
      modifies this`rawBody
      ensures rawBody == old(rawBody) + Concat(chunks)
    {
      for i := 0 to |chunks|
        invariant rawBody == old(rawBody) + Concat(chunks[..i])
      {
        assert chunks[..i + 1][..i] == chunks[..i];
        OnData(chunks[i]);
      }
      assert chunks[..|chunks|] == chunks;
    }

    /** `addRouteParameter` (lib/server.js:107-109); a URIError leaves the map as it was. */
    method AddRouteParameter(name: string, value: string, decodeUri: string -> Option<string>)
      returns (err: Option<UriError>)
      modifies this`routeParameters
      ensures decodeUri(value).Some? ==>
        err.None? && routeParameters == old(routeParameters)[name := decodeUri(value).value]
      ensures decodeUri(value).None? ==>
        err == Some(UriError(value)) && routeParameters == old(routeParameters)
    {
      match decodeUri(value)
      case Some(v) =>
        routeParameters := routeParameters[name := v];
        err := None;
      case None =>
        err := Some(UriError(value));
    }

    /**
     * The capture loop of `getHandler` (lib/server.js:87-89): capture k goes
     * under name k through `addRouteParameter`; a URIError escapes at once,
     * leaving the captures before it bound.
     */
    method AddRouteParameters(names: seq<string>, caps: seq<string>, decodeUri: string -> Option<string>)
      returns (err: Option<UriError>)
      requires |names| == |caps|
      modifies this`routeParameters
      ensures Bound(routeParameters, err) == BindParams(old(routeParameters), names, caps, decodeUri)
    {
      ghost var params0 := routeParameters;
      for k := 0 to |caps|
        invariant BindParams(params0, names[..k], caps[..k], decodeUri) == Bound(routeParameters, None)
      {
        BindParamsStep(params0, names, caps, decodeUri, k);
        err := AddRouteParameter(names[k], caps[k], decodeUri);
        if err.Some? {
          BindParamsErrorSticks(params0, names, caps, decodeUri, k + 1);
          return;
        }
      }
      assert names[..|caps|] == names && caps[..|caps|] == caps;
      return None;
    }

    /**
     * `toContext` (lib/server.js:110-117): route parameters and headers pass
     * through, the query is parsed, the body goes through `getBody`.
     */
    function ToContext(parseQuery: Option<string> -> Value,
                       parseJson: string -> Result<Value, string>): (r: Result<Context, BodyError>)
      reads this
      ensures r.Success? <==> GetBody(rawBody, ContentType(), parseJson).Success?
      ensures r.Success? ==>
        && r.value.path == routeParameters
        && r.value.headers == headers
        && r.value.query == parseQuery(query)
        && r.value.body == GetBody(rawBody, ContentType(), parseJson).value
      ensures r.Failure? ==> r.error == GetBody(rawBody, ContentType(), parseJson).error
    {
      match GetBody(rawBody, ContentType(), parseJson)
      case Success(body) => Success(Context(routeParameters, parseQuery(query), headers, body))
      case Failure(e) => Failure(e)
    }

    /** `headers["content-type"]`. */
    function ContentType(): Option<string>
      reads this
    {
      ContentTypeOf(headers)
    }
  }

  /**
   * Whatever chunks arrive, a request created by the wrapper ends with the
   * body equal to their concatenation, and the context sees that whole body.
   */
  method AccumulateBody(rawMethod: string, path: string, query: Option<string>,
                        headers: map<string, string>, chunks: seq<string>)
    returns (req: Request)
    ensures req.rawBody == Concat(chunks)
    ensures req.routeParameters == map[] && req.headers == headers
  {
    req := new Request(rawMethod, path, query, headers);
    req.ReceiveAll(chunks);
  }
}

=== FILE: responses.dfy ===
/**
 * The response helpers of lib/server.js (lines 199-223): `ok`, `badRequest`,
 * `notFound` and `serverError` fix a status code and hand over to `end`,
 * which writes the status, serialises an object body as JSON with a
 * `Content-Type` header, ends the response and then always throws.
 */
module Responses {
  import opened JsValue

  /** The error `end` throws once it has written the response. */
  datatype Fault = ScriptEnded  // "Script ended"

  /** The header `end` adds for an object body. */
  const ContentTypeHeader: string := "Content-Type"
  const JsonMediaType: string := "application/json"

  const StatusOk: int := 200
  const StatusBadRequest: int := 400
  const StatusNotFound: int := 404
  const StatusServerError: int := 500

  /**
   * The value `end` passes to `response.end`: an object (`_.isObject`: an
   * array or a plain object) becomes its `JSON.stringify` text, anything
   * else is passed unchanged.
   */
  function Payload(body: Value, stringify: Value -> string): (r: Value)
    ensures !IsObject(r)
    ensures IsObject(body) ==> r == Str(stringify(body))
    ensures !IsObject(body) ==> r == body
  {
    if IsObject(body) then Str(stringify(body)) else body
  }

  /** The headers after `end`: the JSON content type is set exactly for an object body. */
  function HeadersAfter(headers: map<string, string>, body: Value): (r: map<string, string>)
    ensures r.Keys == if IsObject(body) then headers.Keys + {ContentTypeHeader} else headers.Keys
    ensures IsObject(body) ==> r[ContentTypeHeader] == JsonMediaType
    ensures forall name :: name in headers && name != ContentTypeHeader ==> r[name] == headers[name]
  {
    if IsObject(body) then headers[ContentTypeHeader := JsonMediaType] else headers
  }

  /** The part of Node's `http.ServerResponse` that lib/server.js touches. */
  class Response {
    var statusCode: int
    var headers: map<string, string>
    /** The value of every `response.end` call, in call order. */
    var sent: seq<Value>

    constructor ()
      ensures statusCode == StatusOk && headers == map[] && sent == []
    {
      statusCode := StatusOk;
      headers := map[];
      sent := [];
    }

    /**
     * `end` (lib/server.js:215-223): set the status, serialise an object
     * body, end the response with it, and throw.
     */
    method End(code: int, body: Value, stringify: Value -> string) returns (fault: Fault)
      modifies this
      ensures statusCode == code
      ensures headers == HeadersAfter(old(headers), body)
      ensures sent == old(sent) + [Payload(body, stringify)]
      ensures fault == ScriptEnded
    {
      statusCode := code;
      var payload := body;
      if IsObject(body) {
        payload := Str(stringify(body));
        headers := headers[ContentTypeHeader := JsonMediaType];
      }
      sent := sent + [payload];
      return ScriptEnded;
    }

    /** `ok` (lib/server.js:199-201). */
    method Ok(body: Value, stringify: Value -> string) returns (fault: Fault)
      modifies this
      ensures statusCode == StatusOk
      ensures headers == HeadersAfter(old(headers), body)
      ensures sent == old(sent) + [Payload(body, stringify)]
      ensures fault == ScriptEnded
    {
      fault := End(StatusOk, body, stringify);
    }

    /** `badRequest` (lib/server.js:203-205). */
    method BadRequest(body: Value, stringify: Value -> string) returns (fault: Fault)
      modifies this
      ensures statusCode == StatusBadRequest
      ensures headers == HeadersAfter(old(headers), body)
      ensures sent == old(sent) + [Payload(body, stringify)]
      ensures fault == ScriptEnded
    {
      fault := End(StatusBadRequest, body, stringify);
    }

    /** `notFound` (lib/server.js:207-209). */
    method NotFound(body: Value, stringify: Value -> string) returns (fault: Fault)
      modifies this
      ensures statusCode == StatusNotFound
      ensures headers == HeadersAfter(old(headers), body)
      ensures sent == old(sent) + [Payload(body, stringify)]
      ensures fault == ScriptEnded
    {
      fault := End(StatusNotFound, body, stringify);
    }

    /** `serverError` (lib/server.js:211-213). */
    method ServerError(body: Value, stringify: Value -> string) returns (fault: Fault)
      modifies this
      ensures statusCode == StatusServerError
      ensures headers == HeadersAfter(old(headers), body)
      ensures sent == old(sent) + [Payload(body, stringify)]
      ensures fault == ScriptEnded
    {
      fault := End(StatusServerError, body, stringify);
    }
  }
}

=== FILE: route_pattern.dfy ===
/**
 * Splitting a route text into literal segments and `<name>` placeholders,
 * as lib/server.js does with the global regular expression `/<(\w+)>/gi`:
 * `route.match` finds the placeholders (leftmost first, never overlapping),
 * `route.replace` turns each into a capturing wildcard `(.+)`, and stripping
 * the angle brackets gives the parameter names.
 */
module RoutePattern {
  import opened Wrappers

  /** The regular-expression class `\w`. */
  predicate IsWordChar(c: char) {
    'a' <= c <= 'z' || 'A' <= c <= 'Z' || '0' <= c <= '9' || c == '_'
  }

  /** `<\w+>` matches `s` at position `i`, with a name of `n` characters. */
  predicate IsPlaceholder(s: string, i: nat, n: nat) {
    && i + n + 2 <= |s|
    && n >= 1
    && s[i] == '<'
    && (forall j :: i < j <= i + n ==> IsWordChar(s[j]))
    && s[i + n + 1] == '>'
  }

  /** The length of the run of word characters that starts at `s[i]`. */
  function WordRun(s: string, i: nat): (n: nat)
    requires i <= |s|
    ensures i + n <= |s|
    ensures forall j :: i <= j < i + n ==> IsWordChar(s[j])
    ensures i + n < |s| ==> !IsWordChar(s[i + n])
    decreases |s| - i
  {
    if i < |s| && IsWordChar(s[i]) then 1 + WordRun(s, i + 1) else 0
  }

  /** The name length of the placeholder at `s[i]`, if one starts there. */
  function PlaceholderAt(s: string, i: nat): (r: Option<nat>)
    requires i <= |s|
    ensures r.Some? ==> 1 <= r.value && i + r.value + 2 <= |s|
  {
    if i < |s| && s[i] == '<' then
      var n := WordRun(s, i + 1);
      if n > 0 && i + 1 + n < |s| && s[i + 1 + n] == '>' then Some(n)
      else
        None
    else None
  }

  /** `PlaceholderAt` finds the placeholder at `s[i]` exactly when `<\w+>` matches there. */
  lemma PlaceholderAtCorrect(s: string, i: nat)
    requires i <= |s|
    ensures PlaceholderAt(s, i).Some? ==> IsPlaceholder(s, i, PlaceholderAt(s, i).value)
    ensures PlaceholderAt(s, i).None? ==> forall n :: !IsPlaceholder(s, i, n)
  {
  }

  /**
   * A route text cut at its placeholders: `literals[0]`, then for each k the
   * placeholder named `names[k]` followed by `literals[k + 1]`.
   */
  datatype Template = Template(literals: seq<string>, names: seq<string>)

  /** The template of `s[i..]`. */
  function ParseFrom(s: string, i: nat): (t: Template)
    requires i <= |s|
    ensures |t.literals| == |t.names| + 1
    decreases |s| - i
  {
    if i == |s| then Template([""], [])
    else match PlaceholderAt(s, i)
      case Some(n) =>
        var rest := ParseFrom(s, i + n + 2);
        Template([""] + rest.literals, [s[i + 1..i + 1 + n]] + rest.names)
      case None =>
        var rest := ParseFrom(s, i + 1);
        Template([[s[i]] + rest.literals[0]] + rest.literals[1..], rest.names)
  }

  /** The template of a route text (lib/server.js:37, 42, 45). */
  function ParseRoute(route: string): (t: Template)
    ensures |t.literals| == |t.names| + 1
  {
    ParseFrom(route, 0)
  }

  /** `ls[0] + fs[0] + ls[1] + ... + fs[n-1] + ls[n]`. */
  function Interleave(ls: seq<string>, fs: seq<string>): string
    requires |ls| == |fs| + 1
    decreases |fs|
  {
    if fs == [] then ls[0] else ls[0] + fs[0] + Interleave(ls[1..], fs[1..])
  }

  /** Each name written back as its placeholder `<name>`. */
  function Bracketed(names: seq<string>): (bs: seq<string>)
    ensures |bs| == |names|
  {
    if names == [] then [] else ["<" + names[0] + ">"] + Bracketed(names[1..])
  }

  lemma InterleaveConsChar(c: char, ls: seq<string>, fs: seq<string>)
    requires |ls| == |fs| + 1
    ensures Interleave([[c] + ls[0]] + ls[1..], fs) == [c] + Interleave(ls, fs)
  {
    var ls' := [[c] + ls[0]] + ls[1..];
    assert ls'[1..] == ls[1..];
  }

  lemma InterleaveCons(l: string, f: string, ls: seq<string>, fs: seq<string>)
    requires |ls| == |fs| + 1
    ensures Interleave([l] + ls, [f] + fs) == l + f + Interleave(ls, fs)
  {
    assert ([l] + ls)[1..] == ls;
    assert ([f] + fs)[1..] == fs;
  }

  lemma BracketedCons(name: string, names: seq<string>)
    ensures Bracketed([name] + names) == ["<" + name + ">"] + Bracketed(names)
  {
    assert ([name] + names)[1..] == names;
  }

  lemma PlaceholderText(s: string, i: nat, n: nat)
    requires IsPlaceholder(s, i, n)
    ensures s[i..] == "" + ("<" + s[i + 1..i + 1 + n] + ">") + s[i + n + 2..]
  {
    assert s[i..] == s[i..i + n + 2] + s[i + n + 2..];
    assert s[i..i + n + 2] == "<" + s[i + 1..i + 1 + n] + ">";
  }

  /** The round trip at a placeholder, given the round trip of the text after it. */
  lemma RoundTripPlaceholder(s: string, i: nat, n: nat)
    requires i < |s| && PlaceholderAt(s, i) == Some(n)
    requires var rest := ParseFrom(s, i + n + 2);
      Interleave(rest.literals, Bracketed(rest.names)) == s[i + n + 2..]
    ensures Interleave(ParseFrom(s, i).literals, Bracketed(ParseFrom(s, i).names)) == s[i..]
  {
    var rest := ParseFrom(s, i + n + 2);
    var name := s[i + 1..i + 1 + n];
    PlaceholderAtCorrect(s, i);
    assert ParseFrom(s, i) == Template([""] + rest.literals, [name] + rest.names);
    BracketedCons(name, rest.names);
    InterleaveCons("", "<" + name + ">", rest.literals, Bracketed(rest.names));
    PlaceholderText(s, i, n);
  }

  /** The round trip at a plain character, given the round trip of the text after it. */
  lemma RoundTripChar(s: string, i: nat)
    requires i < |s| && PlaceholderAt(s, i).None?
    requires var rest := ParseFrom(s, i + 1);
      Interleave(rest.literals, Bracketed(rest.names)) == s[i + 1..]
    ensures Interleave(ParseFrom(s, i).literals, Bracketed(ParseFrom(s, i).names)) == s[i..]
  {
    var rest := ParseFrom(s, i + 1);
    assert ParseFrom(s, i) == Template([[s[i]] + rest.literals[0]] + rest.literals[1..], rest.names);
    InterleaveConsChar(s[i], rest.literals, Bracketed(rest.names));
    assert s[i..] == [s[i]] + s[i + 1..];
  }

  /** Writing the names back between the literals gives the route text again. */
  lemma {:induction false} ParseFromRoundTrip(s: string, i: nat)
    requires i <= |s|
    ensures Interleave(ParseFrom(s, i).literals, Bracketed(ParseFrom(s, i).names)) == s[i..]
    decreases |s| - i
  {
    if i < |s| {
      match PlaceholderAt(s, i)
      case Some(n) =>
        ParseFromRoundTrip(s, i + n + 2);
        RoundTripPlaceholder(s, i, n);
      case None =>
        ParseFromRoundTrip(s, i + 1);
        RoundTripChar(s, i);
    } else {
      assert ParseFrom(s, i) == Template([""], []);
      assert s[i..] == "";
    }
  }

  /** `ParseRoute` loses nothing: the route text is recovered from its template. */
  lemma ParseRouteRoundTrip(route: string)
    ensures Interleave(ParseRoute(route).literals, Bracketed(ParseRoute(route).names)) == route
  {
    ParseFromRoundTrip(route, 0);
  }

  /** Every name is a non-empty run of word characters. */
  lemma {:induction false} ParseFromNamesAreWords(s: string, i: nat)
    requires i <= |s|
    ensures forall k :: 0 <= k < |ParseFrom(s, i).names| ==>
      var name := ParseFrom(s, i).names[k];
      name != [] && forall j :: 0 <= j < |name| ==> IsWordChar(name[j])
    decreases |s| - i
  {
    if i < |s| {
      PlaceholderAtCorrect(s, i);
      match PlaceholderAt(s, i)
      case Some(n) =>
        ParseFromNamesAreWords(s, i + n + 2);
        var name := s[i + 1..i + 1 + n];
        assert forall j :: 0 <= j < |name| ==> name[j] == s[i + 1 + j];
      case None =>
        ParseFromNamesAreWords(s, i + 1);
    }
  }

  /**
   * A route text is static (has no names) exactly when `<\w+>` matches
   * nowhere in it (lib/server.js:37-38).
   */
  lemma {:induction false} ParseFromStaticIff(s: string, i: nat)
    requires i <= |s|
    ensures ParseFrom(s, i).names == [] <==> !exists j, n :: i <= j && IsPlaceholder(s, j, n)
    decreases |s| - i
  {
    if i < |s| {
      PlaceholderAtCorrect(s, i);
      match PlaceholderAt(s, i)
      case Some(n) =>
        assert IsPlaceholder(s, i, n);
      case None =>
        ParseFromStaticIff(s, i + 1);
        assert forall n :: !IsPlaceholder(s, i, n);
    } else {
      forall j, n | i <= j ensures !IsPlaceholder(s, j, n) { }
    }
  }

  /**
   * Characters at which no placeholder starts are copied into the first
   * literal: `s[i..j]` is a prefix of the first literal of `s[i..]`.
   */
  lemma {:induction false} ParseFromPlainRun(s: string, i: nat, j: nat)
    requires i <= j <= |s|
    requires forall k :: i <= k < j ==> PlaceholderAt(s, k).None?
    ensures ParseFrom(s, i).names == ParseFrom(s, j).names
    ensures ParseFrom(s, i).literals[0] == s[i..j] + ParseFrom(s, j).literals[0]
    ensures ParseFrom(s, i).literals[1..] == ParseFrom(s, j).literals[1..]
    decreases j - i
  {
    if i < j {
      ParseFromPlainRun(s, i + 1, j);
      var mid := ParseFrom(s, i + 1);
      assert PlaceholderAt(s, i).None?;
      assert ParseFrom(s, i) == Template([[s[i]] + mid.literals[0]] + mid.literals[1..], mid.names);
      assert [s[i]] + (s[i + 1..j] + ParseFrom(s, j).literals[0]) == s[i..j] + ParseFrom(s, j).literals[0];
    } else {
      assert s[i..j] + ParseFrom(s, j).literals[0] == ParseFrom(s, j).literals[0];
    }
  }

  /**
   * The first literal of `s[i..]` is the text from `i` up to the first
   * placeholder, so no placeholder starts inside it.
   */
  lemma {:induction false} FirstLiteralIsPlain(s: string, i: nat)
    requires i <= |s|
    ensures var lit := ParseFrom(s, i).literals[0];
      && i + |lit| <= |s|
      && lit == s[i..i + |lit|]
      && forall k :: i <= k < i + |lit| ==> PlaceholderAt(s, k).None?
    decreases |s| - i
  {
    if i < |s| && PlaceholderAt(s, i).None? {
      FirstLiteralIsPlain(s, i + 1);
      var rest := ParseFrom(s, i + 1);
      var m := |rest.literals[0]|;
      assert ParseFrom(s, i).literals[0] == [s[i]] + rest.literals[0];
      assert [s[i]] + s[i + 1..i + 1 + m] == s[i..i + 1 + m];
    } else if i < |s| {
      assert ParseFrom(s, i).literals[0] == "";
    } else {
      assert ParseFrom(s, i).literals[0] == "";
    }
  }

  /** No placeholder lies inside the first literal of `s[i..]`. */
  lemma FirstLiteralHasNoPlaceholder(s: string, i: nat)
    requires i <= |s|
    ensures forall j: nat, n: nat :: !IsPlaceholder(ParseFrom(s, i).literals[0], j, n)
  {
    var lit := ParseFrom(s, i).literals[0];
    FirstLiteralIsPlain(s, i);
    forall j: nat, n: nat | IsPlaceholder(lit, j, n)
      ensures false
    {
      assert lit == s[i..i + |lit|];
      assert forall m :: j <= m < j + n + 2 ==> lit[m] == s[i + m];
      assert IsPlaceholder(s, i + j, n);
      PlaceholderAtCorrect(s, i + j);
    }
  }

  /**
   * No literal segment of the template still holds a placeholder: every
   * `<\w+>` of the route text became a name (lib/server.js:37, 42, 45).
   */
  lemma {:induction false} ParseFromLiteralsArePlain(s: string, i: nat)
    requires i <= |s|
    ensures forall k, j: nat, n: nat :: 0 <= k < |ParseFrom(s, i).literals| ==>
      !IsPlaceholder(ParseFrom(s, i).literals[k], j, n)
    decreases |s| - i
  {
    var t := ParseFrom(s, i);
    FirstLiteralHasNoPlaceholder(s, i);
    if i < |s| {
      match PlaceholderAt(s, i)
      case Some(n) =>
        ParseFromLiteralsArePlain(s, i + n + 2);
        var rest := ParseFrom(s, i + n + 2);
        assert t == Template([""] + rest.literals, [s[i + 1..i + 1 + n]] + rest.names);
        assert forall k :: 1 <= k < |t.literals| ==> t.literals[k] == rest.literals[k - 1];
      case None =>
        ParseFromLiteralsArePlain(s, i + 1);
        var rest := ParseFrom(s, i + 1);
        assert t == Template([[s[i]] + rest.literals[0]] + rest.literals[1..], rest.names);
        assert forall k :: 1 <= k < |t.literals| ==> t.literals[k] == rest.literals[k];
    }
  }

  /**
   * The variables of a route are exactly its placeholder names in
   * left-to-right order: the text is recovered by writing each name back as
   * `<name>` between the literals, each name is a word, and no literal
   * segment holds a placeholder of its own.
   */
  lemma ParseRouteExact(route: string)
    ensures var t := ParseRoute(route);
      && Interleave(t.literals, Bracketed(t.names)) == route
      && (forall k :: 0 <= k < |t.names| ==>
            t.names[k] != [] && forall j :: 0 <= j < |t.names[k]| ==> IsWordChar(t.names[k][j]))
      && forall k, j: nat, n: nat :: 0 <= k < |t.literals| ==> !IsPlaceholder(t.literals[k], j, n)
  {
    ParseFromRoundTrip(route, 0);
    ParseFromNamesAreWords(route, 0);
    ParseFromLiteralsArePlain(route, 0);
  }
}

=== FILE: route_table.dfy ===
/**
 * The route table of lib/server.js: `Handler` (lines 133-142), `DynamicRoute`
 * (53-58), `initRoutes` (28-51) and `getHandler` (75-92). The pure functions
 * say what the table holds after building and which handler a request gets;
 * the class `Router` holds the two tables as the source's globals
 * `_staticRoutes` and `_dynamicRoutes` and fills and reads them step by step.
 */
module RouteTable {
  import opened Wrappers
  import opened JsValue
  import opened RoutePattern
  import opened PatternMatch
  import opened Requests

  /** A handler: the script reference and the filters of its descriptor. */
  datatype Handler = Handler(file: Value, filters: Value)

  /** The errors `initRoutes` throws. */
  datatype ConfigError =
    | RoutesMissing           // "site.json must contain 'routes' dictionary"
    | UnexpectedScriptFormat  // "Unexpected script format"

  /** The handler descriptors `Handler` accepts: a string or any object. */
  predicate IsDescriptor(settings: Value) {
    settings.Str? || IsObject(settings)
  }

  /**
   * `new Handler(settings)`: a string is the script itself, any other object
   * gives its `script` and `filters` members, anything else is rejected.
   */
  function MakeHandler(settings: Value): (r: Result<Handler, ConfigError>)
    ensures r.Success? <==> IsDescriptor(settings)
    ensures settings.Str? ==> r.value.file == settings && r.value.filters == Undefined
    ensures IsObject(settings) ==>
      r.value.file == Member(settings, "script") && r.value.filters == Member(settings, "filters")
    ensures r.Failure? ==> r.error == UnexpectedScriptFormat
  {
    if settings.Str? then Success(Handler(settings, Undefined))
    else if IsObject(settings) then Success(Handler(Member(settings, "script"), Member(settings, "filters")))
    else Failure(UnexpectedScriptFormat)
  }

  /**
   * A route with placeholders: its text, the literal segments of its
   * compiled pattern, the placeholder names in order, and its handler.
   */
  datatype DynamicRoute = DynamicRoute(route: string, pattern: seq<string>, variables: seq<string>, handler: Handler)

  /** The pattern and the variables are those derived from the route text. */
  predicate WellFormedRoute(r: DynamicRoute) {
    var t := ParseRoute(r.route);
    r.pattern == t.literals && r.variables == t.names && t.names != [] && |r.pattern| == |r.variables| + 1
  }

  /** The routes of one method: `_staticRoutes[method]` and `_dynamicRoutes[method]`. */
  datatype MethodRoutes = MethodRoutes(statics: map<string, Handler>, dynamics: seq<DynamicRoute>)

  /** Static keys have no placeholder; each dynamic route is derived from its text. */
  predicate MethodRoutesValid(mr: MethodRoutes) {
    && (forall k :: k in mr.statics ==> ParseRoute(k).names == [])
    && (forall i :: 0 <= i < |mr.dynamics| ==> WellFormedRoute(mr.dynamics[i]))
  }

  /** The routes of a method as built so far, and the error that stopped building, if any. */
  datatype Built = Built(routes: MethodRoutes, error: Option<ConfigError>)

  /** One turn of the inner loop of `initRoutes` (lib/server.js:37-48): the route `route` with descriptor `settings`. */
  function AddRoute(mr: MethodRoutes, route: string, settings: Value): (b: Built)
    ensures b.error.Some? ==> b.error.value == UnexpectedScriptFormat
  {
    var t := ParseRoute(route);
    match MakeHandler(settings)
    case Failure(e) => Built(mr, Some(e))
    case Success(h) =>
      if t.names == [] then Built(mr.(statics := mr.statics[route := h]), None)
      else Built(mr.(dynamics := mr.dynamics + [DynamicRoute(route, t.literals, t.names, h)]), None)
  }

  /** Route lookup `table[key]` in a method's description. */
  function Descriptors(table: Value): string -> Value {
    key => Member(table, key)
  }

  /** The inner loop of `initRoutes` over the route keys `keys`, in order, each with its descriptor `lookup(key)`. */
  function AddRoutes(mr: MethodRoutes, lookup: string -> Value, keys: seq<string>): (b: Built)
    ensures b.error.Some? ==> b.error.value == UnexpectedScriptFormat
    decreases |keys|
  {
    if keys == [] then Built(mr, None)
    else
      var b := AddRoutes(mr, lookup, keys[..|keys| - 1]);
      if b.error.Some? then b
      else AddRoute(b.routes, keys[|keys| - 1], lookup(keys[|keys| - 1]))
  }

  /** The routes one method gets from its description `routes[method]` (lib/server.js:34-49). */
  function BuildMethod(table: Value): (b: Built)
    ensures MethodRoutesValid(b.routes)
    ensures b.error.Some? ==> b.error.value == UnexpectedScriptFormat
  {
    AddRoutesValid(MethodRoutes(map[], []), Descriptors(table), ForInKeys(table));
    AddRoutes(MethodRoutes(map[], []), Descriptors(table), ForInKeys(table))
  }

  /** The two global tables, keyed by lower-cased method. */
  datatype Tables = Tables(statics: map<string, map<string, Handler>>, dynamics: map<string, seq<DynamicRoute>>)

  /** Both tables have the same methods, and each method's routes are valid. */
  predicate TablesValid(t: Tables) {
    && t.statics.Keys == t.dynamics.Keys
    && forall m :: m in t.statics ==> MethodRoutesValid(MethodRoutes(t.statics[m], t.dynamics[m]))
  }

  /** The tables as built so far, and the error that stopped building, if any. */
  datatype BuiltTables = BuiltTables(tables: Tables, error: Option<ConfigError>)

  /** The routes of each lower-cased method `m`, built from `routes[m]`. */
  function MethodBuilder(routes: Value): string -> Built {
    m => BuildMethod(Member(routes, m))
  }

  /**
   * One turn of the outer loop of `initRoutes` (lib/server.js:33-36): the
   * lower-cased key gets the routes `build` gives it, replacing any it had.
   */
  function InstallMethod(t: Tables, build: string -> Built, key: string): (r: BuiltTables)
    ensures r.tables.statics.Keys == t.statics.Keys + {Lower(key)}
    ensures r.tables.dynamics.Keys == t.dynamics.Keys + {Lower(key)}
    ensures forall m :: m in t.statics && m != Lower(key) ==> r.tables.statics[m] == t.statics[m]
    ensures forall m :: m in t.dynamics && m != Lower(key) ==> r.tables.dynamics[m] == t.dynamics[m]
  {
    var m := Lower(key);
    var mb := build(m);
    BuiltTables(Tables(t.statics[m := mb.routes.statics], t.dynamics[m := mb.routes.dynamics]), mb.error)
  }

  /** The outer loop of `initRoutes` over the method keys `keys`. */
  function InstallMethods(t: Tables, build: string -> Built, keys: seq<string>): (r: BuiltTables)
    ensures t.statics.Keys <= r.tables.statics.Keys && t.dynamics.Keys <= r.tables.dynamics.Keys
    decreases |keys|
  {
    if keys == [] then BuiltTables(t, None)
    else
      var b := InstallMethods(t, build, keys[..|keys| - 1]);
      if b.error.Some? then b else InstallMethod(b.tables, build, keys[|keys| - 1])
  }

  /** `initRoutes(routes)` applied to the tables `t`: null or undefined is rejected untouched. */
  function Build(t: Tables, routes: Value): (b: BuiltTables)
    ensures IsNullish(routes) ==> b.tables == t && b.error == Some(RoutesMissing)
  {
    if IsNullish(routes) then BuiltTables(t, Some(RoutesMissing))
    else InstallMethods(t, MethodBuilder(routes), ForInKeys(routes))
  }

  /** The route texts of a list of dynamic routes. */
  function RouteTexts(ds: seq<DynamicRoute>): (rs: seq<string>)
    ensures |rs| == |ds| && forall i :: 0 <= i < |ds| ==> rs[i] == ds[i].route
  {
    if ds == [] then [] else RouteTexts(ds[..|ds| - 1]) + [ds[|ds| - 1].route]
  }

  /** The keys with a placeholder, in order. */
  function DynamicKeys(keys: seq<string>): seq<string> {
    if keys == [] then []
    else
      var last := keys[|keys| - 1];
      DynamicKeys(keys[..|keys| - 1]) + (if ParseRoute(last).names != [] then [last] else [])
  }

  // Validity of the built tables

  /** Adding a route keeps the routes of a method valid. */
  lemma AddRouteValid(mr: MethodRoutes, route: string, settings: Value)
    requires MethodRoutesValid(mr)
    ensures MethodRoutesValid(AddRoute(mr, route, settings).routes)
  {
    var t := ParseRoute(route);
    if MakeHandler(settings).Success? && t.names != [] {
      var d := DynamicRoute(route, t.literals, t.names, MakeHandler(settings).value);
      assert WellFormedRoute(d);
      var ds := mr.dynamics + [d];
      assert forall i :: 0 <= i < |ds| ==> ds[i] == d || ds[i] == mr.dynamics[i];
    }
  }

  /** Adding routes keeps the routes of a method valid. */
  lemma {:induction false} AddRoutesValid(mr: MethodRoutes, lookup: string -> Value, keys: seq<string>)
    requires MethodRoutesValid(mr)
    ensures MethodRoutesValid(AddRoutes(mr, lookup, keys).routes)
    decreases |keys|
  {
    if keys != [] {
      var n := |keys| - 1;
      AddRoutesValid(mr, lookup, keys[..n]);
      AddRouteValid(AddRoutes(mr, lookup, keys[..n]).routes, keys[n], lookup(keys[n]));
    }
  }

  /** Every method's routes, as built from any description, are valid. */
  lemma MethodBuilderValid(routes: Value)
    ensures forall m :: MethodRoutesValid(MethodBuilder(routes)(m).routes)
  {
    forall m
      ensures MethodRoutesValid(MethodBuilder(routes)(m).routes)
    {
      var table := Member(routes, m);
      AddRoutesValid(MethodRoutes(map[], []), Descriptors(table), ForInKeys(table));
    }
  }

  /** Installing valid routes keeps the tables valid. */
  lemma {:induction false} InstallMethodsValid(t: Tables, build: string -> Built, keys: seq<string>)
    requires TablesValid(t)
    requires forall m :: MethodRoutesValid(build(m).routes)
    ensures TablesValid(InstallMethods(t, build, keys).tables)
    decreases |keys|
  {
    if keys != [] {
      InstallMethodsValid(t, build, keys[..|keys| - 1]);
    }
  }

  /** `initRoutes` leaves valid tables valid, whether it succeeds or throws. */
  lemma BuildValid(t: Tables, routes: Value)
    requires TablesValid(t)
    ensures TablesValid(Build(t, routes).tables)
  {
    if !IsNullish(routes) {
      MethodBuilderValid(routes);
      InstallMethodsValid(t, MethodBuilder(routes), ForInKeys(routes));
    }
  }

  // Building the routes of one method

  /** One route fails exactly when its descriptor is neither a string nor an object. */
  lemma AddRouteError(mr: MethodRoutes, route: string, settings: Value)
    ensures AddRoute(mr, route, settings).error.None? <==> IsDescriptor(settings)
  {
  }

  /** Building stops with an error exactly when some descriptor is neither a string nor an object. */
  lemma {:induction false} AddRoutesFails(mr: MethodRoutes, lookup: string -> Value, keys: seq<string>)
    ensures AddRoutes(mr, lookup, keys).error.None? <==> forall j :: 0 <= j < |keys| ==> IsDescriptor(lookup(keys[j]))
    decreases |keys|
  {
    if keys != [] {
      var n := |keys| - 1;
      var keys' := keys[..n];
      AddRoutesFails(mr, lookup, keys');
      var b := AddRoutes(mr, lookup, keys');
      assert forall j :: 0 <= j < n ==> keys'[j] == keys[j];
      if b.error.Some? {
        var j :| 0 <= j < n && !IsDescriptor(lookup(keys'[j]));
        assert !IsDescriptor(lookup(keys[j]));
      } else {
        AddRouteError(b.routes, keys[n], lookup(keys[n]));
      }
    }
  }

  /** A successful build is the successful build of all keys but the last, then the last key. */
  lemma AddRoutesLast(mr: MethodRoutes, lookup: string -> Value, keys: seq<string>)
    requires keys != [] && AddRoutes(mr, lookup, keys).error.None?
    ensures var n := |keys| - 1;
      var b := AddRoutes(mr, lookup, keys[..n]);
      && b.error.None?
      && MakeHandler(lookup(keys[n])).Success?
      && AddRoutes(mr, lookup, keys) == AddRoute(b.routes, keys[n], lookup(keys[n]))
  {
  }

  /**
   * When building succeeds, the keys with placeholders are appended to the
   * dynamic list after the routes already there, in the order given, each
   * under its own text and with its own descriptor's handler.
   */
  lemma {:induction false} AddRoutesDynamics(mr: MethodRoutes, lookup: string -> Value, keys: seq<string>)
    requires AddRoutes(mr, lookup, keys).error.None?
    ensures var r := AddRoutes(mr, lookup, keys).routes;
      var ds := DynamicKeys(keys);
      && |r.dynamics| == |mr.dynamics| + |ds|
      && r.dynamics[..|mr.dynamics|] == mr.dynamics
      && forall k :: 0 <= k < |ds| ==>
           && r.dynamics[|mr.dynamics| + k].route == ds[k]
           && MakeHandler(lookup(ds[k])) == Success(r.dynamics[|mr.dynamics| + k].handler)
    decreases |keys|
  {
    if keys != [] {
      var n := |keys| - 1;
      AddRoutesLast(mr, lookup, keys);
      AddRoutesDynamics(mr, lookup, keys[..n]);
      var b := AddRoutes(mr, lookup, keys[..n]).routes;
      var r := AddRoutes(mr, lookup, keys).routes;
      if ParseRoute(keys[n]).names != [] {
        assert DynamicKeys(keys) == DynamicKeys(keys[..n]) + [keys[n]];
        assert r.dynamics[..|b.dynamics|] == b.dynamics;
        assert r.dynamics[..|mr.dynamics|] == b.dynamics[..|mr.dynamics|];
      } else {
        assert DynamicKeys(keys) == DynamicKeys(keys[..n]);
      }
    }
  }

  /**
   * When building succeeds and the keys are distinct, each placeholder-free
   * key is stored in the static map under its exact text with its
   * descriptor's handler; keys with placeholders are never stored there;
   * other entries are kept.
   */
  lemma {:induction false} AddRoutesStatics(mr: MethodRoutes, lookup: string -> Value, keys: seq<string>)
    requires forall a, b :: 0 <= a < b < |keys| ==> keys[a] != keys[b]
    requires AddRoutes(mr, lookup, keys).error.None?
    ensures var r := AddRoutes(mr, lookup, keys).routes;
      && (forall k :: k in r.statics <==> k in mr.statics || (k in keys && ParseRoute(k).names == []))
      && (forall k :: k in keys && ParseRoute(k).names == [] ==> MakeHandler(lookup(k)) == Success(r.statics[k]))
      && (forall k :: k in mr.statics && k !in keys ==> r.statics[k] == mr.statics[k])
    decreases |keys|
  {
    if keys != [] {
      var n := |keys| - 1;
      var keys' := keys[..n];
      AddRoutesLast(mr, lookup, keys);
      AddRoutesStatics(mr, lookup, keys');
      assert keys == keys' + [keys[n]];
      assert keys[n] !in keys';
    }
  }

  /** Stopping at an error: the rest of the keys are not visited. */
  lemma {:induction false} AddRoutesErrorSticks(mr: MethodRoutes, lookup: string -> Value, keys: seq<string>, n: nat)
    requires n <= |keys|
    requires AddRoutes(mr, lookup, keys[..n]).error.Some?
    ensures AddRoutes(mr, lookup, keys) == AddRoutes(mr, lookup, keys[..n])
    decreases |keys| - n
  {
    if n < |keys| {
      assert keys[..|keys| - 1][..n] == keys[..n];
      AddRoutesErrorSticks(mr, lookup, keys[..|keys| - 1], n);
    } else {
      assert keys[..n] == keys;
    }
  }

  lemma AddRoutesStep(mr: MethodRoutes, lookup: string -> Value, keys: seq<string>, j: nat)
    requires j < |keys| && AddRoutes(mr, lookup, keys[..j]).error.None?
    ensures AddRoutes(mr, lookup, keys[..j + 1]) == AddRoute(AddRoutes(mr, lookup, keys[..j]).routes, keys[j], lookup(keys[j]))
  {
    assert keys[..j + 1][..j] == keys[..j];
  }

  /** A method description builds without error exactly when every route's descriptor is a string or an object. */
  lemma BuildMethodFails(table: Value)
    ensures BuildMethod(table).error.None? <==>
      forall key :: key in ForInKeys(table) ==> IsDescriptor(Member(table, key))
  {
    var keys := ForInKeys(table);
    var lookup := Descriptors(table);
    AddRoutesFails(MethodRoutes(map[], []), lookup, keys);
    assert forall j :: 0 <= j < |keys| ==> lookup(keys[j]) == Member(table, keys[j]);
  }

  /**
   * A method description that builds holds, in its static map, exactly the
   * placeholder-free route keys, each with its own descriptor's handler.
   */
  lemma BuildMethodStatics(table: Value)
    requires BuildMethod(table).error.None?
    ensures var r := BuildMethod(table).routes;
      && (forall key :: key in r.statics <==> key in ForInKeys(table) && ParseRoute(key).names == [])
      && (forall key :: key in r.statics ==> MakeHandler(Member(table, key)) == Success(r.statics[key]))
  {
    var lookup := Descriptors(table);
    var r := BuildMethod(table).routes;
    AddRoutesStatics(MethodRoutes(map[], []), lookup, ForInKeys(table));
    forall key | key in r.statics
      ensures MakeHandler(Member(table, key)) == Success(r.statics[key])
    {
      assert MakeHandler(lookup(key)) == Success(r.statics[key]);
    }
  }

  /**
   * Routes built from scratch list, in their dynamic list, the keys with
   * placeholders in the order given, each with its own descriptor's handler.
   */
  lemma AddRoutesDynamicList(lookup: string -> Value, keys: seq<string>)
    requires AddRoutes(MethodRoutes(map[], []), lookup, keys).error.None?
    ensures var r := AddRoutes(MethodRoutes(map[], []), lookup, keys).routes;
      && RouteTexts(r.dynamics) == DynamicKeys(keys)
      && (forall i :: 0 <= i < |r.dynamics| ==> MakeHandler(lookup(r.dynamics[i].route)) == Success(r.dynamics[i].handler))
  {
    var r := AddRoutes(MethodRoutes(map[], []), lookup, keys).routes;
    AddRoutesDynamics(MethodRoutes(map[], []), lookup, keys);
    assert forall i :: 0 <= i < |r.dynamics| ==> RouteTexts(r.dynamics)[i] == DynamicKeys(keys)[i];
  }

  /**
   * A method description that builds holds, in its dynamic list, the route
   * keys with placeholders in visiting order, each with its own descriptor's
   * handler.
   */
  lemma BuildMethodDynamics(table: Value)
    requires BuildMethod(table).error.None?
    ensures var r := BuildMethod(table).routes;
      && RouteTexts(r.dynamics) == DynamicKeys(ForInKeys(table))
      && (forall i :: 0 <= i < |r.dynamics| ==>
            MakeHandler(Member(table, r.dynamics[i].route)) == Success(r.dynamics[i].handler))
  {
    var lookup := Descriptors(table);
    var r := BuildMethod(table).routes;
    AddRoutesDynamicList(lookup, ForInKeys(table));
    forall i | 0 <= i < |r.dynamics|
      ensures MakeHandler(Member(table, r.dynamics[i].route)) == Success(r.dynamics[i].handler)
    {
      assert MakeHandler(lookup(r.dynamics[i].route)) == Success(r.dynamics[i].handler);
    }
  }

  // Installing the methods

  /** A successful outer loop is the successful loop over all keys but the last, then the last key. */
  lemma InstallMethodsLast(t: Tables, build: string -> Built, keys: seq<string>)
    requires keys != [] && InstallMethods(t, build, keys).error.None?
    ensures var n := |keys| - 1;
      var b := InstallMethods(t, build, keys[..n]);
      && b.error.None?
      && InstallMethods(t, build, keys) == InstallMethod(b.tables, build, keys[n])
  {
  }

  /**
   * When building succeeds, each method key's lower-cased form holds exactly
   * the routes built for it, whichever spelling of it came last.
   */
  lemma {:induction false} InstallMethodsPlacement(t: Tables, build: string -> Built, keys: seq<string>)
    requires InstallMethods(t, build, keys).error.None?
    ensures var r := InstallMethods(t, build, keys).tables;
      forall key :: key in keys ==>
        && Lower(key) in r.statics && Lower(key) in r.dynamics
        && r.statics[Lower(key)] == build(Lower(key)).routes.statics
        && r.dynamics[Lower(key)] == build(Lower(key)).routes.dynamics
    decreases |keys|
  {
    if keys != [] {
      var n := |keys| - 1;
      var keys' := keys[..n];
      InstallMethodsLast(t, build, keys);
      InstallMethodsPlacement(t, build, keys');
      assert forall key :: key in keys && key != keys[n] ==> key in keys';
    }
  }

  /** Methods that no key lower-cases to keep their tables; no other method appears. */
  lemma {:induction false} InstallMethodsKeepsOthers(t: Tables, build: string -> Built, keys: seq<string>)
    requires t.statics.Keys == t.dynamics.Keys
    requires InstallMethods(t, build, keys).error.None?
    ensures var r := InstallMethods(t, build, keys).tables;
      && (forall m :: m in r.statics ==> m in t.statics || m in LowerAll(keys))
      && (forall m :: m in t.statics && m !in LowerAll(keys) ==>
            m in r.statics && m in r.dynamics && r.statics[m] == t.statics[m] && r.dynamics[m] == t.dynamics[m])
    decreases |keys|
  {
    if keys != [] {
      var n := |keys| - 1;
      InstallMethodsLast(t, build, keys);
      InstallMethodsKeepsOthers(t, build, keys[..n]);
      assert LowerAll(keys) == LowerAll(keys[..n]) + [Lower(keys[n])];
    }
  }

  /** The lower-cased form of each key. */
  function LowerAll(keys: seq<string>): (ms: seq<string>)
    ensures |ms| == |keys| && forall i :: 0 <= i < |keys| ==> ms[i] == Lower(keys[i])
  {
    if keys == [] then [] else LowerAll(keys[..|keys| - 1]) + [Lower(keys[|keys| - 1])]
  }

  /** The outer loop fails only with the error of some method's routes. */
  lemma {:induction false} InstallMethodsError(t: Tables, build: string -> Built, keys: seq<string>)
    ensures InstallMethods(t, build, keys).error.Some? ==>
      exists key :: key in keys && InstallMethods(t, build, keys).error == build(Lower(key)).error
    decreases |keys|
  {
    if keys != [] {
      var n := |keys| - 1;
      InstallMethodsError(t, build, keys[..n]);
      if InstallMethods(t, build, keys[..n]).error.Some? {
        var key :| key in keys[..n] && InstallMethods(t, build, keys[..n]).error == build(Lower(key)).error;
        assert key in keys;
      } else {
        assert keys[n] in keys;
      }
    }
  }

  /** `initRoutes` reports the missing routes dictionary exactly when it is null or undefined. */
  lemma BuildRejectsNullish(t: Tables, routes: Value)
    ensures Build(t, routes).error == Some(RoutesMissing) <==> IsNullish(routes)
    ensures Build(t, routes).error.Some? && !IsNullish(routes) ==>
      Build(t, routes).error == Some(UnexpectedScriptFormat)
  {
    if !IsNullish(routes) {
      InstallMethodsError(t, MethodBuilder(routes), ForInKeys(routes));
    }
  }

  /**
   * `initRoutes` on the whole description: when building succeeds, every
   * method key is installed under its lower-cased name with the routes of
   * `routes[lower-cased key]`.
   */
  lemma BuildPlacement(t: Tables, routes: Value)
    requires Build(t, routes).error.None?
    ensures !IsNullish(routes)
    ensures var r := Build(t, routes).tables;
      forall key :: key in ForInKeys(routes) ==>
        && Lower(key) in r.statics && Lower(key) in r.dynamics
        && r.statics[Lower(key)] == BuildMethod(Member(routes, Lower(key))).routes.statics
        && r.dynamics[Lower(key)] == BuildMethod(Member(routes, Lower(key))).routes.dynamics
  {
    var build := MethodBuilder(routes);
    InstallMethodsPlacement(t, build, ForInKeys(routes));
    assert forall m :: build(m) == BuildMethod(Member(routes, m));
  }

  /** A successful `initRoutes` leaves every method that no key lower-cases to alone, and adds no other. */
  lemma BuildKeepsOthers(t: Tables, routes: Value)
    requires t.statics.Keys == t.dynamics.Keys
    requires Build(t, routes).error.None?
    ensures var r := Build(t, routes).tables;
      && (forall m :: m in r.statics ==> m in t.statics || m in LowerAll(ForInKeys(routes)))
      && (forall m :: m in t.statics && m !in LowerAll(ForInKeys(routes)) ==>
            m in r.statics && m in r.dynamics && r.statics[m] == t.statics[m] && r.dynamics[m] == t.dynamics[m])
  {
    InstallMethodsKeepsOthers(t, MethodBuilder(routes), ForInKeys(routes));
  }

  /**
   * A key spelled `GET` installs the method `get` with the routes found under
   * the key `get`, which here is absent: the method ends up with no routes.
   */
  lemma UpperCaseMethodKeyInstallsEmptyTable()
    ensures var routes := Obj([("GET", Obj([("/a", Str("a.puml"))]))]);
      Build(Tables(map[], map[]), routes) ==
        BuiltTables(Tables(map["get" := map[]], map["get" := []]), None)
  {
    var routes := Obj([("GET", Obj([("/a", Str("a.puml"))]))]);
    var ms := [("GET", Obj([("/a", Str("a.puml"))]))];
    assert MemberKeys(ms[..0]) == [];
    assert ForInKeys(routes) == ["GET"];
    assert Lower("GET") == "get";
    assert Member(routes, "get") == Undefined by {
      assert Lookup(ms[..0], "get") == Undefined;
    }
    assert BuildMethod(Undefined) == Built(MethodRoutes(map[], []), None);
    assert ["GET"][..0] == [];
  }

  lemma InstallMethodsStep(t: Tables, build: string -> Built, keys: seq<string>, i: nat)
    requires i < |keys| && InstallMethods(t, build, keys[..i]).error.None?
    ensures InstallMethods(t, build, keys[..i + 1]) ==
      InstallMethod(InstallMethods(t, build, keys[..i]).tables, build, keys[i])
  {
    assert keys[..i + 1][..i] == keys[..i];
  }

  lemma {:induction false} InstallMethodsErrorSticks(t: Tables, build: string -> Built, keys: seq<string>, n: nat)
    requires n <= |keys|
    requires InstallMethods(t, build, keys[..n]).error.Some?
    ensures InstallMethods(t, build, keys) == InstallMethods(t, build, keys[..n])
    decreases |keys| - n
  {
    if n < |keys| {
      assert keys[..|keys| - 1][..n] == keys[..n];
      InstallMethodsErrorSticks(t, build, keys[..|keys| - 1], n);
    } else {
      assert keys[..n] == keys;
    }
  }

  /** Which route, if any, answers a request. */
  datatype Resolution =
    | NoRoute
    | StaticHit(handler: Handler)
    | DynamicHit(index: nat, handler: Handler, names: seq<string>, captures: seq<string>)

  /** The scan of the dynamic list from position `i` (lib/server.js:82-91). */
  function FirstMatch(rs: seq<DynamicRoute>, path: string, i: nat): (r: Resolution)
    requires i <= |rs|
    requires forall j :: 0 <= j < |rs| ==> WellFormedRoute(rs[j])
    ensures !r.StaticHit?
    ensures r.DynamicHit? ==>
      && i <= r.index < |rs|
      && r.handler == rs[r.index].handler
      && r.names == rs[r.index].variables
      && |r.captures| == |r.names|
    decreases |rs| - i
  {
    if i == |rs| then NoRoute
    else
      assert WellFormedRoute(rs[i]);
      match Exec(rs[i].pattern, path)
      case Some(caps) => DynamicHit(i, rs[i].handler, rs[i].variables, caps)
      case None => FirstMatch(rs, path, i + 1)
  }

  /** The route `getHandler` chooses for a lower-cased verb and a path (lib/server.js:75-92). */
  function Resolve(t: Tables, verb: string, path: string): (r: Resolution)
    requires TablesValid(t)
    ensures r.StaticHit? <==> verb in t.statics && path in t.statics[verb]
    ensures r.StaticHit? ==> r.handler == t.statics[verb][path]
    ensures r.DynamicHit? ==>
      verb in t.dynamics && r.index < |t.dynamics[verb]| && r.handler == t.dynamics[verb][r.index].handler
  {
    if verb in t.statics && path in t.statics[verb] then StaticHit(t.statics[verb][path])
    else if verb !in t.dynamics then NoRoute
    else FirstMatch(t.dynamics[verb], path, 0)
  }

  lemma {:induction false} FirstMatchCorrect(rs: seq<DynamicRoute>, path: string, i: nat)
    requires i <= |rs|
    requires forall j :: 0 <= j < |rs| ==> WellFormedRoute(rs[j])
    ensures FirstMatch(rs, path, i).StaticHit? == false
    ensures FirstMatch(rs, path, i).DynamicHit? ==>
      var h := FirstMatch(rs, path, i);
      && i <= h.index < |rs|
      && h.handler == rs[h.index].handler
      && h.names == rs[h.index].variables
      && |h.captures| == |h.names|
      && Matches(rs[h.index].pattern, path, h.captures)
      && forall j, cs :: i <= j < h.index ==> !Matches(rs[j].pattern, path, cs)
    ensures FirstMatch(rs, path, i).NoRoute? ==>
      forall j, cs :: i <= j < |rs| ==> !Matches(rs[j].pattern, path, cs)
    decreases |rs| - i
  {
    if i < |rs| {
      ExecCorrect(rs[i].pattern, path);
      if Exec(rs[i].pattern, path).None? {
        FirstMatchCorrect(rs, path, i + 1);
      } else {
        var cs := Exec(rs[i].pattern, path).value;
        assert Matches(rs[i].pattern, path, cs);
        var p :| 0 <= p <= |path| && MatchesAt(rs[i].pattern, path, p, cs);
      }
    }
  }

  /**
   * The choice `getHandler` makes: an exact static key wins whatever dynamic
   * routes exist; otherwise the first dynamic route, in list order, whose
   * pattern matches the path, with its captures for its names in order, and
   * no earlier route matches; no handler when the verb is unknown or
   * nothing matches.
   */
  lemma ResolveCorrect(t: Tables, verb: string, path: string)
    requires TablesValid(t)
    ensures Resolve(t, verb, path).StaticHit? <==> verb in t.statics && path in t.statics[verb]
    ensures Resolve(t, verb, path).StaticHit? ==>
      Resolve(t, verb, path).handler == t.statics[verb][path]
    ensures Resolve(t, verb, path).DynamicHit? ==>
      var h := Resolve(t, verb, path);
      var rs := t.dynamics[verb];
      && verb in t.dynamics
      && h.index < |rs|
      && h.handler == rs[h.index].handler
      && h.names == rs[h.index].variables
      && |h.captures| == |h.names|
      && Matches(rs[h.index].pattern, path, h.captures)
      && forall j, cs :: 0 <= j < h.index ==> !Matches(rs[j].pattern, path, cs)
    ensures Resolve(t, verb, path).NoRoute? <==>
      && !(verb in t.statics && path in t.statics[verb])
      && (verb in t.dynamics ==>
            forall j, cs :: 0 <= j < |t.dynamics[verb]| ==> !Matches(t.dynamics[verb][j].pattern, path, cs))
  {
    if verb in t.dynamics && !(verb in t.statics && path in t.statics[verb]) {
      var rs := t.dynamics[verb];
      assert MethodRoutesValid(MethodRoutes(t.statics[verb], rs));
      FirstMatchCorrect(rs, path, 0);
    }
  }

  /**
   * The inner loop of `initRoutes` (lib/server.js:36-48): the routes of one
   * method description `table`, added key by key; an error stops it with the
   * routes added so far.
   */
  method BuildRoutes(table: Value) returns (statics: map<string, Handler>, dynamics: seq<DynamicRoute>, err: Option<ConfigError>)
    ensures Built(MethodRoutes(statics, dynamics), err) == BuildMethod(table)
  {
    var keys := ForInKeys(table);
    ghost var lookup := Descriptors(table);
    ghost var empty := MethodRoutes(map[], []);
    statics, dynamics, err := map[], [], None;
    for j := 0 to |keys|
      invariant AddRoutes(empty, lookup, keys[..j]) == Built(MethodRoutes(statics, dynamics), None)
    {
      var route := keys[j];
      var settings := Member(table, route);
      ghost var before := MethodRoutes(statics, dynamics);
      AddRoutesStep(empty, lookup, keys, j);
      assert lookup(route) == settings;
      var template := ParseRoute(route);
      var handler := MakeHandler(settings);
      if handler.Failure? {
        assert AddRoutes(empty, lookup, keys[..j + 1]) == Built(before, Some(handler.error));
        AddRoutesErrorSticks(empty, lookup, keys, j + 1);
        return statics, dynamics, Some(handler.error);
      }
      if template.names == [] {
        statics := statics[route := handler.value];
      } else {
        dynamics := dynamics + [DynamicRoute(route, template.literals, template.names, handler.value)];
      }
      assert AddRoute(before, route, settings) == Built(MethodRoutes(statics, dynamics), None);
    }
    assert keys[..|keys|] == keys;
  }

  /** What `getHandler` returns (or throws) and the route parameters it leaves on the request. */
  datatype Found = Found(result: Result<Option<Handler>, UriError>, params: map<string, string>)

  /**
   * `getHandler` (lib/server.js:75-92) on the tables `t`: a static hit or no
   * route leaves the parameters alone; a dynamic hit binds its captures, and
   * a capture `decodeURI` rejects turns the answer into that URIError.
   */
  function LookupHandler(t: Tables, verb: string, path: string, params: map<string, string>,
                         decodeUri: string -> Option<string>): (l: Found)
    requires TablesValid(t)
    ensures !Resolve(t, verb, path).DynamicHit? ==> l.params == params
    ensures l.result == Success(None) <==> Resolve(t, verb, path).NoRoute?
  {
    ResolveCorrect(t, verb, path);
    match Resolve(t, verb, path)
    case NoRoute => Found(Success(None), params)
    case StaticHit(h) => Found(Success(Some(h)), params)
    case DynamicHit(_, h, names, caps) =>
      var b := BindParams(params, names, caps, decodeUri);
      Found(if b.error.None? then Success(Some(h)) else Failure(b.error.value), b.params)
  }

  /**
   * A dynamic hit whose captures all decode answers with the route's handler
   * and stores capture k under the route's k-th variable name; the first
   * capture that does not decode answers with its URIError instead.
   */
  lemma LookupHandlerDynamic(t: Tables, verb: string, path: string, params: map<string, string>,
                             decodeUri: string -> Option<string>)
    requires TablesValid(t) && Resolve(t, verb, path).DynamicHit?
    ensures var h := Resolve(t, verb, path);
      var l := LookupHandler(t, verb, path, params, decodeUri);
      && |h.names| == |h.captures|
      && ((forall k :: 0 <= k < |h.captures| ==> decodeUri(h.captures[k]).Some?) ==>
            && l.result == Success(Some(h.handler))
            && (forall k :: 0 <= k < |h.names| && h.names[k] !in h.names[k + 1..] ==>
                  h.names[k] in l.params && l.params[h.names[k]] == decodeUri(h.captures[k]).value))
      && (forall f ::
            (0 <= f < |h.captures| && decodeUri(h.captures[f]).None? &&
             forall k :: 0 <= k < f ==> decodeUri(h.captures[k]).Some?) ==>
            l.result == Failure(UriError(h.captures[f])))
  {
    ResolveCorrect(t, verb, path);
    var h := Resolve(t, verb, path);
    if forall k :: 0 <= k < |h.captures| ==> decodeUri(h.captures[k]).Some? {
      BindParamsDecodes(params, h.names, h.captures, decodeUri);
      BindParamsLastWins(params, h.names, h.captures, decodeUri);
    }
    forall f | 0 <= f < |h.captures| && decodeUri(h.captures[f]).None? &&
        (forall k :: 0 <= k < f ==> decodeUri(h.captures[k]).Some?)
      ensures LookupHandler(t, verb, path, params, decodeUri).result == Failure(UriError(h.captures[f]))
    {
      BindParamsStopsAtFailure(params, h.names, h.captures, decodeUri, f);
    }
  }

  /** The two global route tables (lib/server.js:15-16). */
  class Router {
    var staticRoutes: map<string, map<string, Handler>>
    var dynamicRoutes: map<string, seq<DynamicRoute>>

    function Current(): Tables
      reads this
    {
      Tables(staticRoutes, dynamicRoutes)
    }

    predicate Valid()
      reads this
    {
      TablesValid(Current())
    }

    constructor ()
      ensures Valid() && staticRoutes == map[] && dynamicRoutes == map[]
    {
      staticRoutes := map[];
      dynamicRoutes := map[];
    }

    /** `initRoutes` (lib/server.js:29-51); an error is the exception it throws. */
    method InitRoutes(routes: Value) returns (err: Option<ConfigError>)
      requires Valid()
      modifies this
      ensures Valid()
      ensures BuiltTables(Current(), err) == Build(old(Current()), routes)
    {
      if routes.Null? || routes.Undefined? {
        return Some(RoutesMissing);
      }
      ghost var t0 := Current();
      BuildValid(t0, routes);
      var methods := ForInKeys(routes);
      for i := 0 to |methods|
        invariant InstallMethods(t0, MethodBuilder(routes), methods[..i]) == BuiltTables(Current(), None)
      {
        InstallMethodsStep(t0, MethodBuilder(routes), methods, i);
        err := InitMethod(routes, methods[i]);
        if err.Some? {
          InstallMethodsErrorSticks(t0, MethodBuilder(routes), methods, i + 1);
          return;
        }
      }
      assert methods[..|methods|] == methods;
      return None;
    }

    /**
     * One turn of the outer loop of `initRoutes` (lib/server.js:33-49): reset
     * the lower-cased method's tables to what its routes build.
     */
    method InitMethod(routes: Value, key: string) returns (err: Option<ConfigError>)
      modifies this
      ensures BuiltTables(Current(), err) == InstallMethod(old(Current()), MethodBuilder(routes), key)
    {
      var verb := Lower(key);
      var statics, dynamics;
      statics, dynamics, err := BuildRoutes(Member(routes, verb));
      staticRoutes := staticRoutes[verb := statics];
      dynamicRoutes := dynamicRoutes[verb := dynamics];
    }

    /**
     * `getHandler` (lib/server.js:75-92): the static lookup, then the scan of
     * the dynamic list, binding the winner's captures onto the request. A
     * URIError from `decodeURI` escapes with the parameters bound before it.
     */
    method GetHandler(request: Request, decodeUri: string -> Option<string>)
      returns (r: Result<Option<Handler>, UriError>)
      requires Valid()
      modifies request`routeParameters
      ensures Found(r, request.routeParameters) ==
        LookupHandler(Current(), request.httpMethod, request.path, old(request.routeParameters), decodeUri)
    {
      var verb, path := request.httpMethod, request.path;
      if verb in staticRoutes && path in staticRoutes[verb] {
        return Success(Some(staticRoutes[verb][path]));
      }
      if verb !in dynamicRoutes {
        return Success(None);
      }
      var routes := dynamicRoutes[verb];
      assert MethodRoutesValid(MethodRoutes(staticRoutes[verb], routes));
      for i := 0 to |routes|
        invariant FirstMatch(routes, path, 0) == FirstMatch(routes, path, i)
      {
        var routeInfo := routes[i];
        var captures := Exec(routeInfo.pattern, path);
        if captures.Some? {
          FirstMatchCorrect(routes, path, i);
          var err := request.AddRouteParameters(routeInfo.variables, captures.value, decodeUri);
          if err.Some? {
            return Failure(err.value);
          }
          return Success(Some(routeInfo.handler));
        }
      }
      return Success(None);
    }
  }
}

=== FILE: scenarios.dfy ===
/**
 * A worked request through the route table: the route `/users/<id>`
 * declared for GET, and a request for `/users/42`.
 */
module Scenarios {
  import opened Wrappers
  import opened JsValue
  import opened RoutePattern
  import opened PatternMatch
  import opened Requests
  import opened RouteTable

  /** `/users/<id>` is dynamic, with one variable `id` between `/users/` and the end. */
  lemma UsersRouteTemplate()
    ensures ParseRoute("/users/<id>") == Template(["/users/", ""], ["id"])
  {
    var s := "/users/<id>";
    assert PlaceholderAt(s, 7) == Some(2);
    assert s[8..10] == "id";
    assert ParseFrom(s, 11) == Template([""], []);
    assert ParseFrom(s, 7) == Template(["", ""], ["id"]);
    assert s[..7] == "/users/";
    forall k | 0 <= k < 7
      ensures PlaceholderAt(s, k).None?
    {
      assert s[k] == s[..7][k] != '<';
    }
    ParseFromPlainRun(s, 0, 7);
    assert s[0..7] + "" == "/users/";
    assert ["", ""][1..] == [""];
    var t := ParseFrom(s, 0);
    assert t.literals == [t.literals[0]] + t.literals[1..];
  }

  /** The pattern of `/users/<id>` matches `/users/42` with the single capture `42`. */
  lemma UsersPathCaptures()
    ensures Exec(["/users/", ""], "/users/42") == Some(["42"])
  {
    var s := "/users/42";
    assert MatchFrom([""], s, 9) == Some([]);
    assert IsCapture(s[7..9]);
    assert s[7..9] == "42";
    assert [s[7..9]] + [] == ["42"];
    assert Capture([""], s, 7, 2) == Some(["42"]);
    assert ["/users/", ""][1..] == [""];
    assert MatchFrom(["/users/", ""], s, 0) == Some(["42"]);
    assert LiteralAt("/users/", s, 0);
  }

  /**
   * With `/users/<id>` as the only GET route, `GET /users/42` picks it, and
   * the route parameters become `{ id: decodeURI("42") }`.
   */
  lemma UsersLookup(h: Handler, decodeUri: string -> Option<string>)
    requires decodeUri("42") == Some("42")
    ensures var t := Tables(map["get" := map[]],
                            map["get" := [DynamicRoute("/users/<id>", ["/users/", ""], ["id"], h)]]);
      && TablesValid(t)
      && Resolve(t, "get", "/users/42") == DynamicHit(0, h, ["id"], ["42"])
      && LookupHandler(t, "get", "/users/42", map[], decodeUri) == Found(Success(Some(h)), map["id" := "42"])
  {
    UsersRouteTemplate();
    UsersPathCaptures();
    var rs := [DynamicRoute("/users/<id>", ["/users/", ""], ["id"], h)];
    assert WellFormedRoute(rs[0]);
    var t := Tables(map["get" := map[]], map["get" := rs]);
    assert MethodRoutesValid(MethodRoutes(map[], rs));
    assert TablesValid(t);
    assert FirstMatch(rs, "/users/42", 0) == DynamicHit(0, h, ["id"], ["42"]);
    assert ["id"][..0] == [] && ["42"][..0] == [];
    assert BindParams(map[], ["id"], ["42"], decodeUri) == Bound(map["id" := "42"], None);
  }

  /** The GET description `{ "/users/<id>": "users.puml" }` builds one dynamic route. */
  lemma UsersTableBuilds()
    ensures BuildMethod(Obj([("/users/<id>", Str("users.puml"))])) ==
      Built(MethodRoutes(map[], [DynamicRoute("/users/<id>", ["/users/", ""], ["id"],
                                              Handler(Str("users.puml"), Undefined))]), None)
  {
    UsersRouteTemplate();
    OneRouteTable("/users/<id>", Str("users.puml"));
  }

  /** A description with a single route builds exactly that route. */
  lemma OneRouteTable(route: string, settings: Value)
    ensures BuildMethod(Obj([(route, settings)])) == AddRoute(MethodRoutes(map[], []), route, settings)
  {
    var table := Obj([(route, settings)]);
    assert MemberKeys([(route, settings)][..0]) == [];
    assert ForInKeys(table) == [route];
    assert Member(table, route) == settings;
    assert [route][..0] == [];
    var lookup := Descriptors(table);
    assert lookup(route) == settings;
    assert AddRoutes(MethodRoutes(map[], []), lookup, []) == Built(MethodRoutes(map[], []), None);
  }

  /**
   * The routes `{ "get": { "/users/<id>": "users.puml" } }` build one
   * dynamic GET route and no static one.
   */
  lemma UsersRouteBuilds()
    ensures var routes := Obj([("get", Obj([("/users/<id>", Str("users.puml"))]))]);
      Build(Tables(map[], map[]), routes) ==
        BuiltTables(Tables(map["get" := map[]],
                           map["get" := [DynamicRoute("/users/<id>", ["/users/", ""], ["id"],
                                                      Handler(Str("users.puml"), Undefined))]]),
                    None)
  {
    UsersTableBuilds();
    var table := Obj([("/users/<id>", Str("users.puml"))]);
    var routes := Obj([("get", table)]);
    assert MemberKeys([("get", table)][..0]) == [];
    assert ForInKeys(routes) == ["get"];
    assert Lower("get") == "get";
    assert Member(routes, "get") == table;
    assert ["get"][..0] == [];
  }
}

=== FILE: wrappers.dfy ===
/** Failure-carrying result types shared by the other modules. */
module Wrappers {

  datatype Option<T> = None | Some(value: T)

  /** The outcome of an operation that may throw: a value, or the error it throws. */
  datatype Result<T, E> = Success(value: T) | Failure(error: E)
}
